=== FILE: README.md ===
# Digital ŠVP page — a Dafny model of its table logic

The page `eskvp.py` is a Streamlit front end to the Slovak state curriculum (ŠVP).
It shows the table of educational standards: goals, performance standards and content
standards, keyed by ids such as `mt3-o-012`. This project models what the page does to
that table, without the user interface:

- **Row selections** (`selection.dfy`):
  - the subject and cycle filter, which looks up the code-plus-cycle key anywhere in the id;
  - the foreign-language variant filter;
  - the cross-cutting literacy filter, where two tags stand for several columns;
  - the science-discipline filter of *Človek a príroda*, which also merges adjacent
    superscript markers;
  - the rows and columns written to the spreadsheet export.

  Each selection is a pandas boolean mask, so it is modelled as an order-keeping `Keep`.
- **In-place rewriting of the `definicia` column** (`annotation.dfy`). A `StandardTable`
  class holds the rows in an array. Two methods rewrite them: one appends a literacy
  emoji per marked literacy (`add_prierezove_gramotnosti`), the other wraps definitions
  in an id tooltip (`vloz_id`).
- **Display text** (`presentation.dfy`):
  - a block rendered as numbered lines, a comma-separated dash list or paragraphs
    (`standardy_as_items`);
  - the grouping of a block by kind of standard (`divide_by_typ_standardu`);
  - the literacy legend (`get_legenda_gramotnost`).
- **The placement label of a search hit** (`search_results.dfy`). It is built by the
  `str.replace` chain of `show_search_results`.

Supporting modules:

- `text.dfy`: Python substring search, left-to-right non-overlapping `str.replace`, and `str.join`.
- `seqs.dfy`: mask selection, element-wise rewriting, and first-seen `unique()`.
- `catalogue.dfy`: the row record and the fixed lookup tables.
- `wrappers.dfy`: `Option`.

Modelling conventions:

- A missing pandas value (NaN) is `None`.
- `NaN + str` stays NaN, so a row without a definition gets no icon.
- `str.contains` on NaN combined with `|` counts as false.
- `NaN != 'Úvod'` holds.
- `isin` never matches NaN.
- An f-string prints NaN as `nan`.
- Expressions that raise in Python (`iloc[0][0]` on an empty block, a missing first
  value or an empty first value; `b[0]` on a missing or empty definition) are modelled
  as `None` or as `ok == false`.

A dash list keeps its dashes: every item's text is kept as it is, the items are joined
with `,\n` and the last separator becomes a full stop (`Presentation.DashListShape`).

## Model

| member | source | states |
|---|---|---|
| Catalogue.LiteracyColumns | eskvp.py:14-22 | there are nine distinct literacy columns |
| Catalogue.IconTableColumns | eskvp.py:14-22 | the literacy columns are exactly the column names of the icon table, which lists each one once |
| Catalogue.SubjectCodesAreLetterPairs | eskvp.py:203-226 | every subject code is two lower-case letters |
| Catalogue.SubjectKeyMatchesOnlyOwnIds | eskvp.py:304 | in a well-formed id, a code-plus-cycle key occurs somewhere exactly when the id starts with it |
| Selection.SelectSubjectCycle | eskvp.py:304 | keeps exactly the rows whose id contains the subject code followed by the cycle; no row is added or repeated |
| Selection.SelectSubjectCycleIsPrefix | eskvp.py:304 | on well-formed ids the unanchored lookup selects exactly the ids starting with the key, so no other subject or cycle leaks in |
| Selection.OtherLanguages | eskvp.py:308-309 | the language list without the chosen language |
| Selection.SelectLanguage | eskvp.py:310 | drops exactly the rows whose kind of standard is another foreign language; rows with no kind stay |
| Selection.SelectSubjectRows | eskvp.py:304-310 | a row is shown iff its id holds the key and, for the foreign-language subject, it is not tagged with another language; a sub-multiset of the table |
| Selection.SelectSubjectRowsConcat | eskvp.py:304-310 | the selection keeps table order: it commutes with splitting the table |
| Selection.TagColumnsCoverLiteracies | eskvp.py:406-411 | each filter tag names literacy columns, and together the tags cover all nine columns |
| Selection.SelectLiteracy | eskvp.py:406-413 | keeps exactly the content standards with a mark in a column of the tag: civic, media or intercultural for the civic tag, reading or visual for the reading-visual tag, otherwise the tag's own column |
| Selection.SelectLiteracyConcat | eskvp.py:406-413 | the literacy selection keeps table order: it commutes with splitting the table in two |
| Selection.CollapseMarkers | eskvp.py:177 | only the definition changes, and a missing definition stays missing |
| Selection.SelectDisciplines | eskvp.py:157-178 | every performance standard, every row whose definition holds the marker of a chosen discipline, and every row whose definition holds the `xxxx` placeholder searched for a discipline not chosen, appears merged; nothing else appears, and the result is no longer than the table (with the concatenation lemma this pins it to the kept rows in table order, each once) |
| Selection.SelectDisciplinesConcat | eskvp.py:174-177 | the discipline selection keeps table order |
| Selection.CollapseTwoMarkers | eskvp.py:176-177 | `<sup>F</sup>, <sup>CH</sup>` becomes `<sup>F, CH</sup>` |
| Selection.ExportRow.Cells | eskvp.py:134 | an exported row has one cell per exported column |
| Selection.ExportRows | eskvp.py:125-134 | exactly the rows that are not introductions (by kind or theme) and not main goals are exported, each cut to the six columns |
| Selection.ExportRowCount | eskvp.py:128-130 | the export has as many rows as the table minus its excluded rows |
| Selection.ExportRowsConcat | eskvp.py:128-130 | the export keeps table order |
| Annotation.AnnotatedStep | eskvp.py:43-45 | pass k appends entry k's marker to a content or performance row marked with it and having a definition; every other row is unchanged |
| Annotation.Annotated | eskvp.py:40-46 | only the definition changes; goals and rows without a definition are unchanged; otherwise the old definition is a prefix of the new one |
| Annotation.IconSuffixHasMarker | eskvp.py:43-45 | the marker of every literacy the row has occurs among the appended markers |
| Annotation.MarkerShownForEveryLiteracy | eskvp.py:40-46 | an annotated content or performance definition shows the marker of every literacy it develops |
| Annotation.IconSuffixEmpty | eskvp.py:43-45 | nothing is appended exactly when the row has none of the literacies |
| Annotation.UnchangedIffNoLiteracy | eskvp.py:40-46 | a content or performance row with a definition is unchanged iff it carries no literacy mark |
| Annotation.Tooltip | eskvp.py:53 | the tooltip opens with the span naming the id, preceded by `- ` for a dash item, and ends with the closing tag; between them stands the whole definition, or for a dash item the text from its third character on |
| Annotation.TooltipRoundTrip | eskvp.py:53 | the definition can be read back from its tooltip; after a leading dash the next character is assumed to be a space |
| Annotation.TooltipRoundTripBullet | eskvp.py:52-53 | a `- text` bullet survives the tooltip round trip unchanged |
| Annotation.WithTooltip | eskvp.py:51-53 | only the definition changes, and goals are unchanged |
| Annotation.StandardTable.AddLiteracyIcons | eskvp.py:40-46 | every row of the array becomes its annotated version |
| Annotation.StandardTable.InsertIdTooltips | eskvp.py:49-54 | succeeds iff every content and performance row has a non-empty definition; then every row gets its tooltip, otherwise the array is unchanged |
| Presentation.Rendered | eskvp.py:74-88 | a block has a rendering exactly when its first item has a first character; it is a text block exactly when that character is `1` or `-`, and otherwise one paragraph per item |
| Presentation.RenderItems | eskvp.py:69-88 | the rendering equals the one chosen by the first character of the first item, and `None` where the page raises |
| Presentation.SuffixEach | eskvp.py:76-82 | the loop text is every item's text followed by the separator |
| Presentation.ShowEach | eskvp.py:87-88 | one paragraph per item, in order |
| Presentation.TrimLastSeparator | eskvp.py:83-84 | cutting the last two characters leaves the items joined by the separator |
| Presentation.RenderedShowsEveryItem | eskvp.py:69-88 | every item of a renderable block appears in the rendering |
| Presentation.GoalLines | eskvp.py:74-78 | numbered goals are joined by newlines, with a final newline |
| Presentation.DashListShape | eskvp.py:79-85 | a dash list starts with the first item, dash included, and ends with a full stop |
| Presentation.GoalExample | eskvp.py:74-78 | two numbered goals give two lines |
| Presentation.DashExample | eskvp.py:79-85 | two dash items give `- a,\n- b.` |
| Presentation.SubtypeValues | eskvp.py:93 | the kinds present in the rows, missing values skipped |
| Presentation.SubtypeValuesConcat | eskvp.py:93 | the kinds are read in table order: reading two slices of the table reads the first slice's kinds, then the second's |
| Presentation.SubtypesInRowOrder | eskvp.py:93 | the distinct kinds come in first-seen order: for an earlier kind, some row of that kind comes before every row of a later kind |
| Presentation.Sections | eskvp.py:93-107 | one group per distinct kind, or a single untitled group of all rows when no row has a kind |
| Presentation.SectionsPartitionRows | eskvp.py:93-102 | a row appears in some group iff it has a kind, and in at most one |
| Presentation.SectionMembers | eskvp.py:101-102 | the group of a kind holds exactly the rows of that kind |
| Presentation.SectionsInRowOrder | eskvp.py:93-102 | the groups follow the table: some row of an earlier group comes before every row of a later group |
| Presentation.SectionHeadings | eskvp.py:95-102 | a group is titled with its kind unless the kind is `Úvod` or `none`; the pupil lead is shown only under a title and when asked for |
| Presentation.DivideBySubtype | eskvp.py:91-107 | tooltips are inserted first; on success the groups are those of the rewritten rows and each is rendered; on failure the table is untouched and nothing is grouped or rendered |
| Presentation.RenderSections | eskvp.py:95-103 | every group is rendered, in order |
| Presentation.Legend | eskvp.py:33-37 | the loop builds a line break and then every tag with its icons, each followed by a line break |
| Presentation.LegendStep | eskvp.py:35-36 | one more entry appends its line and a line break |
| Presentation.LegendListsEveryTag | eskvp.py:25-37 | every tag of the legend table appears beside its icons |
| Presentation.LegendTagsAreFilterTags | eskvp.py:25-30 | the legend's tags are exactly the literacy filter's tags |
| SearchResults.SearchLabel | eskvp.py:150-152 | the label the page prints: the seven slots joined by the separator, then the three replacements; it is never longer than the joined slots |
| SearchResults.Cleanup | eskvp.py:151-152 | the three replacements in the page's order; they only delete or shorten, so the result is never longer than the input |
| SearchResults.DropNoneInJoin | eskvp.py:150-151 | deleting `none` from the joined label deletes it from each slot separately |
| SearchResults.CycleFieldProper | eskvp.py:150 | the cycle slot never holds a bar or `none` |
| SearchResults.CleanupProper | eskvp.py:151-152 | with no blank slot, none of the three replacements changes the label |
| SearchResults.LabelWithoutBlanks | eskvp.py:150-152 | with no blank slot, the label is the seven slots joined by bars, as intended |
| SearchResults.JoinTwoEmpty | eskvp.py:150 | blank theme and kind of standard leave three bars in a row |
| SearchResults.CollapseTwoEmpty | eskvp.py:152 | those three bars collapse into one separator |
| SearchResults.LabelWithBlankThemeAndSubtype | eskvp.py:150-152 | with blank theme and kind of standard, the label is the other five slots joined, as intended |
| SearchResults.DocumentedLabel | eskvp.py:143-152 | the documented hit gets the label of the docstring: subject, cycle, type, component and id, joined by bars |
| SearchResults.JoinFourEmpty | eskvp.py:150 | four blank middle slots leave five bars in a row |
| SearchResults.CollapseFourEmptyFirst | eskvp.py:152 | the first collapse merges only the first three of the five bars |
| SearchResults.CollapseFourEmptySecond | eskvp.py:152 | the second collapse merges one more pair and leaves an empty slot |
| SearchResults.LabelWithFourBlanks | eskvp.py:150-152 | with all four middle slots blank, the label is subject, cycle, one empty slot and id, so it still shows an empty slot |
| SearchResults.DocumentedHitFourBlanks | eskvp.py:150-152 | the documented hit with blank type and component as well keeps an empty slot |
| SearchResults.FirstPassBars | eskvp.py:152 | the first pass, three bars with their spaces to one bar, turns a run of b bars into b/3 + b%3 bars |
| SearchResults.SecondPassBars | eskvp.py:152 | the second pass, two bars with their spaces to one bar, turns a run of b bars into b/2 + b%2 bars |
| SearchResults.GapFirstPass | eskvp.py:152 | the left-to-right first replace takes the bars of a run three at a time |
| SearchResults.GapSecondPass | eskvp.py:152 | the left-to-right second replace takes the bars of a run two at a time |
| SearchResults.GappedIsJoin | eskvp.py:150 | the joined slots, read as shown slots separated by runs of bars, one bar more per empty slot |
| SearchResults.GappedPass | eskvp.py:152 | each replacement rewrites every run of bars on its own and leaves the shown slots alone |
| SearchResults.GappedCollapsed | eskvp.py:150-152 | when every run ends as a single bar, the result is the shown slots joined by the separator |
| SearchResults.ClearedSlots | eskvp.py:151 | deleting `none` from proper or blank slots leaves empty or shown slots and the same slots shown |
| SearchResults.ClearedPasses | eskvp.py:152 | on cleared slots the two bar passes give the first slot and every run after its two passes |
| SearchResults.ClearedCollapse | eskvp.py:152 | on cleared slots whose runs all close, the two passes give the shown slots joined |
| SearchResults.ShortRunsClose | eskvp.py:152 | runs of at most three empty slots always close |
| SearchResults.BrokenRunCloses | eskvp.py:152 | five slots ending in a shown one, with another shown slot among the first four, leave no run that fails to close |
| SearchResults.SlotsToIntended | eskvp.py:150-152 | seven proper or blank slots with a middle one shown come out as the shown slots joined |
| SearchResults.LabelWithSomeMiddle | eskvp.py:150-152 | a hit with any of its four middle slots shown gets the intended label |
| SearchResults.LabelAsIntendedIff | eskvp.py:150-152 | over all sixteen blank patterns of the four middle slots, the label is the intended one exactly when they are not all blank |
| SearchResults.IntendedSearchLabel | eskvp.py:143-152 | the corrected label shows every slot that is not blank and, when no slot text holds a bar, never an empty slot |
| SearchResults.ShownSlots | eskvp.py:143-152 | the slots that are not blank, joined by the separator, contain each such slot and, when bar-free, no two bars with only spaces between |
| SearchResults.JoinedSlots | eskvp.py:146-149 | slots joined by the separator contain every slot, and non-empty bar-free slots leave no empty slot |

## Left out

- The Streamlit user interface is not modelled. This covers the page setup, the CSS file, the sidebar widgets, headings, expanders, tabs, info boxes and download buttons, the navigation loops over components and themes (eskvp.py:312-400) and the display loop of the literacy view (eskvp.py:415-427). The values those widgets choose become parameters.
- `load_standardy` is not modelled: it reads a CSV file, and the table is given to the `StandardTable` constructor instead.
- The `st.cache_data` caching is not modelled.
- `export_to_excel` is not modelled: it writes spreadsheet bytes. The model stops at the exported rows and columns.
- Free-text search is not modelled: `str.contains` with a regular expression, and rapidfuzz similarity ranking.
- `show_search_results` is modelled for its placement label only. The bold definition line, `strip()`, and the 50/30-hit truncation are not modelled.
- The `fillna('')` of the literacy view is not modelled.
- `str.contains` takes a regular expression by default. The patterns the page passes (`-o-`, `-v-`, `-c-`, `-hc-`, the subject key, the discipline markers) hold no metacharacters, so they are modelled as literal substrings.
- Emoji shortcodes and HTML are plain text here; how markdown renders them is not modelled.
- Presentation.RenderSections: when one group raises, the page stops. The model renders every group and reports `None` for the group that raises.
- Presentation.Legend: proved over any tag-to-icons table. `LegendListsEveryTag` and `LegendTagsAreFilterTags` then state the facts about the page's own table.
- Presentation.Shown: a missing definition prints as `nan`. How pandas prints other values, such as numbers, is not modelled.
- Catalogue.Standard: the cycle is a natural number. A float cycle column, which would print as `3.0`, is not modelled.
- Annotation.StandardTable.InsertIdTooltips: a failing pass is reported through `ok`. The Python exception it stands for is not modelled.

## Findings

| source | as written | input that shows it | evidently intended | confidence | as-written member | corrected member |
|---|---|---|---|---|---|---|
| eskvp.py:150-152 | each bar-collapsing `replace` runs once, left to right, so four consecutive blank slots leave one empty slot (two bars with only spaces between) | a hit whose `typ`, `komponent`, `tema` and `typ_standardu` are all `none` or empty, such as `vv3-o-033` with those four blank: its label keeps an empty slot between the cycle and the id (`LabelWithFourBlanks`); every other pattern of blank middle slots comes out right | only the slots that are not blank, joined by the separator | not executed | SearchResults.LabelAsIntendedIff | SearchResults.IntendedSearchLabel |

=== FILE: annotation.dfy ===
/**
 * The two passes that rewrite the `definicia` column of the loaded table in place:
 * appending an emoji per cross-cutting literacy (eskvp.py:39-46) and wrapping a
 * definition in a tooltip that shows the row's id (eskvp.py:49-54).
 */
module Annotation {
  import opened Wrappers
  import opened Text
  import opened Catalogue

  // ---------------------------------------------------------------------------
  // Literacy icons
  // ---------------------------------------------------------------------------

  /** The marker appended for one literacy: a space, then the emoji titled with its name. */
  function IconSpan(name: string, icon: string): string {
    " <span title='" + name + "'>" + icon + "</span>"
  }

  /** The marker of icon-table entry `j`. */
  function EntrySpan(j: nat): string
    requires j < |IconTable|
  {
    IconSpan(IconTable[j].0, IconTable[j].1)
  }

  /** The markers of the first `k` icon-table entries that `lits` contains, in table order. */
  function IconSuffix(lits: set<string>, k: nat): string
    requires k <= |IconTable|
  {
    if k == 0 then ""
    else IconSuffix(lits, k - 1) + (if IconTable[k - 1].0 in lits then EntrySpan(k - 1) else "")
  }

  /** All markers a row with literacy marks `lits` receives. */
  function Icons(lits: set<string>): string {
    IconSuffix(lits, |IconTable|)
  }

  /** A row as it stands after the first `k` passes of the icon loop. */
  function AnnotatedUpTo(x: Standard, k: nat): Standard
    requires k <= |IconTable|
  {
    if IsContentOrPerformance(x.id) && x.definition.Some?
    then x.(definition := Some(x.definition.value + IconSuffix(x.literacies, k)))
    else x
  }

  /** Before the first pass a row is as loaded. */
  lemma AnnotatedNone(x: Standard)
    ensures AnnotatedUpTo(x, 0) == x
  {
    if x.definition.Some? {
      assert x.definition.value + "" == x.definition.value;
    }
  }

  /** Pass `k` appends entry `k`'s marker to a row marked with it and leaves every other row alone. */
  lemma AnnotatedStep(x: Standard, k: nat)
    requires k < |IconTable|
    ensures var y := AnnotatedUpTo(x, k);
      AnnotatedUpTo(x, k + 1) ==
        if IsContentOrPerformance(y.id) && IconTable[k].0 in y.literacies && y.definition.Some?
        then y.(definition := Some(y.definition.value + EntrySpan(k)))
        else y
  {
    if IsContentOrPerformance(x.id) && x.definition.Some? {
      var d := x.definition.value;
      var before := IconSuffix(x.literacies, k);
      if IconTable[k].0 in x.literacies {
        assert d + before + EntrySpan(k) == d + (before + EntrySpan(k));
      } else {
        assert before + "" == before;
      }
    }
  }

  /**
   * A row after the icon pass: content and performance standards get their markers
   * after the definition; goals and rows without a definition are left alone, and no
   * column other than the definition ever changes.
   */
  function Annotated(x: Standard): (y: Standard)
    ensures y.(definition := x.definition) == x
    ensures !IsContentOrPerformance(x.id) || x.definition.None? ==> y == x
    ensures IsContentOrPerformance(x.id) && x.definition.Some? ==>
      y.definition.Some? && StartsWith(y.definition.value, x.definition.value)
  {
    AnnotatedUpTo(x, |IconTable|)
  }

  /** The marker of every literacy a row is marked with occurs among the first `k` markers. */
  lemma {:induction false} IconSuffixHasMarker(lits: set<string>, k: nat, j: nat)
    requires j < k <= |IconTable| && IconTable[j].0 in lits
    ensures Contains(IconSuffix(lits, k), EntrySpan(j))
    decreases k
  {
    var last := if IconTable[k - 1].0 in lits then EntrySpan(k - 1) else "";
    if j == k - 1 {
      assert StartsWith(last, EntrySpan(j));
      ContainsPrepend(IconSuffix(lits, k - 1), last, EntrySpan(j));
    } else {
      IconSuffixHasMarker(lits, k - 1, j);
      ContainsAppend(IconSuffix(lits, k - 1), last, EntrySpan(j));
    }
  }

  /** A content or performance standard shows the marker of every literacy it develops. */
  lemma MarkerShownForEveryLiteracy(x: Standard, j: nat)
    requires IsContentOrPerformance(x.id) && x.definition.Some?
    requires j < |IconTable| && IconTable[j].0 in x.literacies
    ensures Annotated(x).definition.Some?
    ensures Contains(Annotated(x).definition.value, EntrySpan(j))
  {
    IconSuffixHasMarker(x.literacies, |IconTable|, j);
    ContainsPrepend(x.definition.value, Icons(x.literacies), EntrySpan(j));
  }

  /** The first `k` entries add nothing exactly when the row has none of their marks. */
  lemma {:induction false} IconSuffixEmpty(lits: set<string>, k: nat)
    requires k <= |IconTable|
    ensures IconSuffix(lits, k) == "" <==> forall j :: 0 <= j < k ==> IconTable[j].0 !in lits
    decreases k
  {
    if k > 0 {
      IconSuffixEmpty(lits, k - 1);
      if IconTable[k - 1].0 in lits {
        assert |EntrySpan(k - 1)| > 0;
      }
    }
  }

  /** The definition is unchanged exactly when the row carries no literacy mark at all. */
  lemma UnchangedIffNoLiteracy(x: Standard)
    requires IsContentOrPerformance(x.id) && x.definition.Some?
    ensures Annotated(x) == x <==> forall j :: 0 <= j < |IconTable| ==> IconTable[j].0 !in x.literacies
  {
    IconSuffixEmpty(x.literacies, |IconTable|);
    var d := x.definition.value;
    if Annotated(x) == x {
      assert |d + Icons(x.literacies)| == |d|;
    } else {
      assert d + Icons(x.literacies) != d;
    }
  }

  // ---------------------------------------------------------------------------
  // Id tooltips
  // ---------------------------------------------------------------------------

  /** The opening tag of the tooltip that shows `id`. */
  function TitleOpen(id: string): string {
    "<span title='" + id + "'>"
  }

  const Close: string := "</span>"

  /** The text after a leading bullet: Python's `b[2:]`, empty when `b` is shorter. */
  function AfterBullet(b: string): string {
    if |b| >= 2 then b[2..] else ""
  }

  /**
   * The definition wrapped in the id tooltip; a leading `-` bullet is kept outside the
   * tooltip so that the text still renders as a list item.
   */
  function Tooltip(id: string, b: string): (t: string)
    requires |b| > 0
    ensures EndsWith(t, Close)
    ensures b[0] != '-' ==>
      (StartsWith(t, TitleOpen(id)) && |t| >= |TitleOpen(id)| + |Close|
       && t[|TitleOpen(id)|..|t| - |Close|] == b)
    ensures b[0] == '-' ==>
      (StartsWith(t, "- " + TitleOpen(id)) && |t| >= |"- " + TitleOpen(id)| + |Close|
       && t[|"- " + TitleOpen(id)|..|t| - |Close|] == AfterBullet(b))
  {
    if b[0] != '-' then TitleOpen(id) + b + Close
    else "- " + TitleOpen(id) + AfterBullet(b) + Close
  }

  /** Reads a definition back out of its tooltip. */
  function Untooltip(id: string, t: string): string {
    var bullet := "- " + TitleOpen(id);
    var plain := TitleOpen(id);
    if StartsWith(t, bullet) && |t| >= |bullet| + |Close| && EndsWith(t, Close)
    then "- " + t[|bullet|..|t| - |Close|]
    else if StartsWith(t, plain) && |t| >= |plain| + |Close| && EndsWith(t, Close)
    then t[|plain|..|t| - |Close|]
    else t
  }

  /**
   * Reading the tooltip back gives the definition, except that the character after a
   * leading dash is taken to be a space: a bullet written `-x` comes back as `- `.
   */
  lemma TooltipRoundTrip(id: string, b: string)
    requires |b| > 0
    ensures Untooltip(id, Tooltip(id, b)) == if b[0] == '-' then "- " + AfterBullet(b) else b
  {
    var t := Tooltip(id, b);
    var bullet := "- " + TitleOpen(id);
    var plain := TitleOpen(id);
    if b[0] != '-' {
      assert t[0] == '<';
      assert !StartsWith(t, bullet) by { assert bullet[0] == '-'; }
      assert t == plain + b + Close;
      assert t[..|plain|] == plain;
      assert t[|t| - |Close|..] == Close;
      assert t[|plain|..|t| - |Close|] == b;
    } else {
      var rest := AfterBullet(b);
      assert t == bullet + rest + Close;
      assert t[..|bullet|] == bullet;
      assert t[|t| - |Close|..] == Close;
      assert t[|bullet|..|t| - |Close|] == rest;
    }
  }

  /** A bullet written as `- text` survives the round trip unchanged. */
  lemma TooltipRoundTripBullet(id: string, b: string)
    requires |b| >= 2 && b[0] == '-' && b[1] == ' '
    ensures Untooltip(id, Tooltip(id, b)) == b
  {
    TooltipRoundTrip(id, b);
    assert b == "- " + b[2..];
  }

  /** The tooltip pass can rewrite this row: it is a goal, or it has a non-empty definition. */
  predicate TooltipReady(x: Standard) {
    !IsContentOrPerformance(x.id) || (x.definition.Some? && |x.definition.value| > 0)
  }

  /** A row after the tooltip pass: only content and performance standards change. */
  function WithTooltip(x: Standard): (y: Standard)
    requires TooltipReady(x)
    ensures y.(definition := x.definition) == x
    ensures !IsContentOrPerformance(x.id) ==> y == x
  {
    if IsContentOrPerformance(x.id)
    then x.(definition := Some(Tooltip(x.id, x.definition.value)))
    else x
  }

  // ---------------------------------------------------------------------------
  // The table
  // ---------------------------------------------------------------------------

  /** The loaded table, indexed by row; the passes rewrite its rows in place. */
  class StandardTable {
    var rows: array<Standard>

    constructor (init: seq<Standard>)
      ensures fresh(rows) && rows[..] == init
    {
      rows := new Standard[|init|](i requires 0 <= i < |init| => init[i]);
    }

    /**
     * `add_prierezove_gramotnosti`: one pass per icon-table entry, each appending that
     * entry's marker to every content or performance standard marked with it.
     */
    method AddLiteracyIcons()
      modifies rows
      ensures forall m :: 0 <= m < rows.Length ==> rows[m] == Annotated(old(rows[m]))
    {
      forall m | 0 <= m < rows.Length
        ensures rows[m] == AnnotatedUpTo(rows[m], 0)
      {
        AnnotatedNone(rows[m]);
      }
      var k := 0;
      while k < |IconTable|
        invariant 0 <= k <= |IconTable|
        invariant forall m :: 0 <= m < rows.Length ==> rows[m] == AnnotatedUpTo(old(rows[m]), k)
      {
        var name, icon := IconTable[k].0, IconTable[k].1;
        var j := 0;
        while j < rows.Length
          invariant 0 <= j <= rows.Length
          invariant forall m :: 0 <= m < j ==> rows[m] == AnnotatedUpTo(old(rows[m]), k + 1)
          invariant forall m :: j <= m < rows.Length ==> rows[m] == AnnotatedUpTo(old(rows[m]), k)
        {
          AnnotatedStep(old(rows[j]), k);
          var x := rows[j];
          if IsContentOrPerformance(x.id) && name in x.literacies && x.definition.Some? {
            rows[j] := x.(definition := Some(x.definition.value + IconSpan(name, icon)));
          }
          j := j + 1;
        }
        k := k + 1;
      }
    }

    /**
     * `vloz_id`: wraps the definition of every content and performance standard in its
     * id tooltip. The new column is computed before it is stored, so a row it cannot
     * rewrite (missing or empty definition) aborts the pass and leaves the table as it
     * was; `ok` reports whether the pass went through.
     */
    method InsertIdTooltips() returns (ok: bool)
      modifies rows
      ensures ok <==> forall m :: 0 <= m < rows.Length ==> TooltipReady(old(rows[m]))
      ensures ok ==> forall m :: 0 <= m < rows.Length ==>
        TooltipReady(old(rows[m])) && rows[m] == WithTooltip(old(rows[m]))
      ensures !ok ==> rows[..] == old(rows[..])
    {
      var i := 0;
      while i < rows.Length
        invariant 0 <= i <= rows.Length
        invariant forall m :: 0 <= m < i ==> TooltipReady(rows[m])
      {
        if !TooltipReady(rows[i]) {
          return false;
        }
        i := i + 1;
      }
      var j := 0;
      while j < rows.Length
        invariant 0 <= j <= rows.Length
        invariant forall m :: 0 <= m < rows.Length ==> TooltipReady(old(rows[m]))
        invariant forall m :: 0 <= m < j ==> rows[m] == WithTooltip(old(rows[m]))
        invariant forall m :: j <= m < rows.Length ==> rows[m] == old(rows[m])
      {
        rows[j] := WithTooltip(rows[j]);
        j := j + 1;
      }
      ok := true;
    }
  }
}

=== FILE: catalogue.dfy ===
/**
 * The standards table of the state curriculum (ŠVP) and the fixed lookup tables the
 * page is configured with (eskvp.py:14-30, 194, 203-226).
 */
module Catalogue {
  import opened Wrappers
  import opened Text

  /**
   * One row of the table, keyed by `id`. Field names are English; the table's own
   * column names are given beside each field.
   */
  datatype Standard = Standard(
    id: string,                       // id, e.g. "mt3-o-012"
    subject: string,                  // predmet
    cycle: nat,                       // cyklus
    kind: Option<string>,             // typ
    component: Option<string>,        // komponent
    theme: Option<string>,            // tema
    subtype: Option<string>,          // typ_standardu
    definition: Option<string>,       // definicia
    cleanDefinition: Option<string>,  // definicia_clean
    literacies: set<string>)          // the literacy columns whose cell is not empty

  // The nine cross-cutting literacy columns.
  const Visual: string := "Vizuálna gramotnosť"
  const Reading: string := "Čitateľská gramotnosť"
  const Digital: string := "Digitálna gramotnosť"
  const Financial: string := "Finančná gramotnosť"
  const Civic: string := "Občianska gramotnosť"
  const Media: string := "Mediálna gramotnosť"
  const Intercultural: string := "Interkultúrna gramotnosť"
  const Environmental: string := "Environmentálna gramotnosť"
  const SocialEmotional: string := "Sociálna a emocionálna gramotnosť"
  /** The filter tag that stands for reading and visual literacy together. */
  const ReadingVisual: string := "Čitateľská a vizuálna gramotnosť"

  /** Literacy column and its emoji, in the order the icons are appended (eskvp.py:14-22). */
  const IconTable: seq<(string, string)> := [
    (Visual, ":eye:"),
    (Reading, ":book:"),
    (Digital, ":computer:"),
    (Financial, ":chart_with_upwards_trend:"),
    (Civic, ":woman-raising-hand:"),
    (Media, ":iphone:"),
    (Intercultural, ":earth_africa:"),
    (Environmental, ":seedling:"),
    (SocialEmotional, ":people_holding_hands:")]

  /** Filter tag and its legend icons, in the order of the legend (eskvp.py:25-30). */
  const LegendTable: seq<(string, string)> := [
    (ReadingVisual, ":book::eye:"),
    (Digital, ":computer:"),
    (Financial, ":chart_with_upwards_trend:"),
    (Civic, ":woman-raising-hand::iphone::earth_africa:"),
    (Environmental, ":seedling:"),
    (SocialEmotional, ":people_holding_hands:")]

  /** The column names of the icon table. */
  function LiteracyColumns(): (cols: set<string>)
    ensures |cols| == 9
  {
    {Visual, Reading, Digital, Financial, Civic, Media, Intercultural, Environmental, SocialEmotional}
  }

  /** The literacy columns are exactly the columns the icon table lists, one entry each. */
  lemma IconTableColumns()
    ensures LiteracyColumns() == set j | 0 <= j < |IconTable| :: IconTable[j].0
    ensures |IconTable| == |LiteracyColumns()|
  {
    var listed := set j | 0 <= j < |IconTable| :: IconTable[j].0;
    forall c | c in listed ensures c in LiteracyColumns() {
      var j :| 0 <= j < |IconTable| && IconTable[j].0 == c;
    }
    assert IconTable[0].0 == Visual && IconTable[1].0 == Reading && IconTable[2].0 == Digital;
    assert IconTable[3].0 == Financial && IconTable[4].0 == Civic && IconTable[5].0 == Media;
    assert IconTable[6].0 == Intercultural && IconTable[7].0 == Environmental && IconTable[8].0 == SocialEmotional;
  }

  /** The foreign-language subject, split into six languages under one id range. */
  const ForeignLanguage: string := "Cudzí jazyk"

  const ForeignLanguages: seq<string> := [
    "Anglický jazyk", "Francúzsky jazyk", "Nemecký jazyk",
    "Ruský jazyk", "Španielsky jazyk", "Taliansky jazyk"]

  /** Subject name to the two-letter code that starts its ids (eskvp.py:203-226). */
  const SubjectCodes: map<string, string> := map[
    "Slovenský jazyk a literatúra" := "sk",
    "Maďarský jazyk a literatúra" := "hu",
    "Nemecký jazyk a literatúra" := "de",
    "Rómsky jazyk a literatúra" := "ry",
    "Rusínsky jazyk a literatúra" := "ri",
    "Ruský jazyk a literatúra" := "ru",
    "Ukrajinský jazyk a literatúra" := "uk",
    "Slovenský jazyk a slovenská literatúra" := "sj",
    "Slovenský jazyk ako druhý jazyk" := "dj",
    "Cudzí jazyk" := "cj",
    "Matematika" := "mt",
    "Informatika" := "if",
    "Človek a spoločnosť" := "cs",
    "Človek a príroda" := "cp",
    "Človek a svet práce" := "sp",
    "Hudobná výchova" := "hv",
    "Výtvarná výchova" := "vv",
    "Zdravie a pohyb" := "zp",
    "Náboženstvo Cirkvi bratskej" := "br",
    "Náboženstvo Gréckokatolíckej cirkvi" := "gr",
    "Náboženstvo Pravoslávnej cirkvi" := "pr",
    "Náboženstvo Reformovanej kresťanskej cirkvi" := "rf",
    "Náboženstvo Rímskokatolíckej cirkvi" := "rk",
    "Náboženstvo Evanjelickej cirkvi a. v." := "ev"]

  // Kinds of standard, read off the id by substring containment.
  predicate IsMainGoal(id: string) { Contains(id, "-hc-") }
  predicate IsContent(id: string) { Contains(id, "-o-") }
  predicate IsPerformance(id: string) { Contains(id, "-v-") }

  /** Content and performance standards; goals carry neither icons nor id tooltips. */
  predicate IsContentOrPerformance(id: string) {
    IsContent(id) || IsPerformance(id)
  }

  predicate IsLetter(c: char) { 'a' <= c <= 'z' }
  predicate IsDigit(c: char) { '0' <= c <= '9' }

  predicate LetterPair(code: string) {
    |code| == 2 && IsLetter(code[0]) && IsLetter(code[1])
  }

  /** Every subject code is two lower-case letters. */
  lemma SubjectCodesAreLetterPairs()
    ensures forall s :: s in SubjectCodes ==> LetterPair(SubjectCodes[s])
  {
  }

  /**
   * An id as the catalogue writes it: two-letter subject code, cycle digit, a dash,
   * the kind token, a dash and the sequence number (`mt3-o-012`, `sk1-hc-001`).
   */
  predicate WellFormedId(id: string) {
    && |id| >= 6
    && IsLetter(id[0]) && IsLetter(id[1]) && IsDigit(id[2]) && id[3] == '-'
    && var n := KindEnd(id);
       n < |id| && id[n] == '-' && id[4..n] in {"c", "v", "o", "hc"}
       && forall j :: n < j < |id| ==> IsDigit(id[j])
  }

  /** Where the dash that closes the kind token of an id sits. */
  function KindEnd(id: string): nat
    requires |id| >= 6
  {
    if id[5] == '-' then 5 else 6
  }

  /** A containment witness: the position where `p` occurs in `s`. */
  lemma {:induction false} ContainsAt(s: string, p: string) returns (i: nat)
    requires Contains(s, p)
    ensures i + |p| <= |s| && s[i..i + |p|] == p
    decreases |s|
  {
    if StartsWith(s, p) {
      i := 0;
    } else {
      var k := ContainsAt(s[1..], p);
      i := k + 1;
      assert s[i..i + |p|] == s[1..][k..k + |p|];
    }
  }

  /** In a well-formed id, two letters followed by a digit occur only at the start. */
  lemma LetterPairDigitOnlyAtStart(id: string, i: nat)
    requires WellFormedId(id)
    requires i + 3 <= |id| && IsLetter(id[i]) && IsLetter(id[i + 1]) && IsDigit(id[i + 2])
    ensures i == 0
  {
    var n := KindEnd(id);
    assert id[4..n] in {"c", "v", "o", "hc"};
    assert n == 6 ==> id[4..n] == "hc" && id[5] == 'c';
  }

  /**
   * The subject/cycle key occurs in a well-formed id only at its start: a
   * code-plus-digit key matches exactly the ids of that code and cycle, even though
   * the key is looked up anywhere in the id.
   */
  lemma SubjectKeyMatchesOnlyOwnIds(id: string, code: string, cycle: char)
    requires WellFormedId(id)
    requires |code| == 2 && IsLetter(code[0]) && IsLetter(code[1]) && IsDigit(cycle)
    ensures Contains(id, code + [cycle]) <==> id[..3] == code + [cycle]
  {
    var key := code + [cycle];
    if Contains(id, key) {
      var i := ContainsAt(id, key);
      assert id[i] == key[0] && id[i + 1] == key[1] && id[i + 2] == key[2];
      LetterPairDigitOnlyAtStart(id, i);
    }
    if id[..3] == key {
      assert StartsWith(id, key);
    }
  }
}

=== FILE: presentation.dfy ===
/**
 * The text the page builds for display: a block of standards rendered as lines, a
 * comma-separated list or paragraphs (eskvp.py:69-88), the grouping of a block by
 * the kind of standard (eskvp.py:91-107) and the literacy legend (eskvp.py:33-37).
 */
module Presentation {
  import opened Wrappers
  import opened Text
  import opened Seqs
  import opened Catalogue
  import opened Selection
  import opened Annotation

  // ---------------------------------------------------------------------------
  // Rendering a block of standards
  // ---------------------------------------------------------------------------

  /** A cell as an f-string prints it: a missing value prints as `nan`. */
  function Shown(v: Option<string>): string {
    if v.Some? then v.value else "nan"
  }

  function ShownItems(items: seq<Option<string>>): seq<string> {
    Apply(items, Shown)
  }

  /** What is put on the page: one markdown block, or one paragraph per item. */
  datatype Rendering = Lines(text: string) | Paragraphs(texts: seq<string>)

  /**
   * The block can be rendered: it has a first item with a first character. Reading that
   * character raises on an empty block, a missing first value or an empty first text.
   */
  predicate Renderable(items: seq<Option<string>>) {
    |items| > 0 && items[0].Some? && |items[0].value| > 0
  }

  /**
   * The rendering of a block, decided by the first character of its first item:
   * numbered goals become one line each, a dash list becomes comma-separated lines
   * closed by a full stop (the items keep their dashes), anything else becomes
   * paragraphs. `None` where the page raises.
   */
  function Rendered(items: seq<Option<string>>): (r: Option<Rendering>)
    ensures r.Some? <==> Renderable(items)
    ensures r.Some? ==> (r.value.Lines? <==> items[0].value[0] == '1' || items[0].value[0] == '-')
    ensures r.Some? && r.value.Paragraphs? ==> |r.value.texts| == |items|
  {
    if !Renderable(items) then None
    else if items[0].value[0] == '1' then Some(Lines(Suffixed(ShownItems(items), "\n")))
    else if items[0].value[0] == '-' then Some(Lines(Join(ShownItems(items), ",\n") + "."))
    else Some(Paragraphs(ShownItems(items)))
  }

  /** `standardy_as_items`: builds the text item by item, then trims the last separator. */
  method RenderItems(items: seq<Option<string>>) returns (out: Option<Rendering>)
    ensures out == Rendered(items)
  {
    if |items| == 0 || items[0].None? || |items[0].value| == 0 {
      return None;
    }
    var lead := items[0].value[0];
    if lead == '1' {
      var text := SuffixEach(items, "\n");
      out := Some(Lines(text));
    } else if lead == '-' {
      var text := SuffixEach(items, ",\n");
      TrimLastSeparator(ShownItems(items), ",\n");
      out := Some(Lines(text[..|text| - 2] + "."));
    } else {
      var texts := ShowEach(items);
      out := Some(Paragraphs(texts));
    }
  }

  /** The loop `text += f"{item}{suffix}"` over the block. */
  method SuffixEach(items: seq<Option<string>>, suffix: string) returns (text: string)
    ensures text == Suffixed(ShownItems(items), suffix)
  {
    text := "";
    var i := 0;
    while i < |items|
      invariant 0 <= i <= |items|
      invariant text == Suffixed(ShownItems(items)[..i], suffix)
    {
      SuffixedStep(ShownItems(items), i, suffix);
      text := text + (Shown(items[i]) + suffix);
      i := i + 1;
    }
    assert ShownItems(items)[..|items|] == ShownItems(items);
  }

  /** The loop writing one paragraph per item. */
  method ShowEach(items: seq<Option<string>>) returns (texts: seq<string>)
    ensures texts == ShownItems(items)
  {
    texts := [];
    var i := 0;
    while i < |items|
      invariant 0 <= i <= |items|
      invariant texts == ShownItems(items)[..i]
    {
      assert ShownItems(items)[..i + 1] == ShownItems(items)[..i] + [Shown(items[i])];
      texts := texts + [Shown(items[i])];
      i := i + 1;
    }
    assert ShownItems(items)[..|items|] == ShownItems(items);
  }

  /** Dropping the two characters of the last separator leaves the items joined. */
  lemma TrimLastSeparator(shown: seq<string>, sep: string)
    requires |shown| > 0 && |sep| == 2
    ensures |Suffixed(shown, sep)| >= 2
    ensures Suffixed(shown, sep)[..|Suffixed(shown, sep)| - 2] == Join(shown, sep)
  {
    SuffixedIsJoin(shown, sep);
    var joined := Join(shown, sep);
    assert (joined + sep)[..|joined + sep| - 2] == joined;
  }

  /** Nothing is dropped: every item of a renderable block reaches the page. */
  lemma RenderedShowsEveryItem(items: seq<Option<string>>, j: nat)
    requires Renderable(items) && j < |items|
    ensures Rendered(items).Some?
    ensures match Rendered(items).value
      case Lines(text) => Contains(text, Shown(items[j]))
      case Paragraphs(texts) => |texts| == |items| && texts[j] == Shown(items[j])
  {
    var shown := ShownItems(items);
    if items[0].value[0] == '1' {
      SuffixedContainsItem(shown, "\n", j);
    } else if items[0].value[0] == '-' {
      JoinContainsItem(shown, ",\n", j);
      ContainsAppend(Join(shown, ",\n"), ".", shown[j]);
    }
  }

  /** Numbered goals: the items one per line, each line ended by a newline. */
  lemma GoalLines(items: seq<Option<string>>)
    requires Renderable(items) && items[0].value[0] == '1'
    ensures Rendered(items) == Some(Lines(Join(ShownItems(items), "\n") + "\n"))
  {
    SuffixedIsJoin(ShownItems(items), "\n");
  }

  /** A dash list keeps the first item's dash at the start and ends with a full stop. */
  lemma DashListShape(items: seq<Option<string>>)
    requires Renderable(items) && items[0].value[0] == '-'
    ensures Rendered(items).Some? && Rendered(items).value.Lines?
    ensures var text := Rendered(items).value.text;
      StartsWith(text, items[0].value) && text[0] == '-' && text[|text| - 1] == '.'
  {
    var shown := ShownItems(items);
    JoinStartsWithFirst(shown, ",\n");
    var joined := Join(shown, ",\n");
    assert (joined + ".")[..|items[0].value|] == joined[..|items[0].value|];
  }

  /** Two numbered goals become two lines. */
  lemma GoalExample()
    ensures Rendered([Some("1. A"), Some("1. B")]) == Some(Lines("1. A" + "\n" + "1. B" + "\n"))
  {
    var items := [Some("1. A"), Some("1. B")];
    var shown := ShownItems(items);
    assert shown == ["1. A", "1. B"];
    assert shown[..1] == ["1. A"];
    assert shown[..1][..0] == [];
    assert Suffixed(shown[..1], "\n") == "1. A" + "\n";
  }

  /** Two dash items become one sentence: the dashes stay, a comma between, a full stop after. */
  lemma DashExample()
    ensures Rendered([Some("- a"), Some("- b")]) == Some(Lines("- a" + ",\n" + "- b" + "."))
  {
    var items := [Some("- a"), Some("- b")];
    var shown := ShownItems(items);
    assert shown == ["- a", "- b"];
    assert shown[..1] == ["- a"];
    assert Join(shown, ",\n") == "- a" + ",\n" + "- b";
  }

  // ---------------------------------------------------------------------------
  // Grouping by kind of standard
  // ---------------------------------------------------------------------------

  /** The `typ_standardu` values present in the rows, missing ones skipped, in row order. */
  function SubtypeValues(rows: seq<Standard>): (r: seq<string>)
    ensures forall s :: s in r <==> exists x :: x in rows && x.subtype == Some(s)
    decreases |rows|
  {
    if |rows| == 0 then []
    else
      assert forall x :: x in rows <==> x == rows[0] || x in rows[1..];
      (if rows[0].subtype.Some? then [rows[0].subtype.value] else []) + SubtypeValues(rows[1..])
  }

  /** The distinct kinds of standard, in the order they first occur. */
  function Subtypes(rows: seq<Standard>): seq<string> {
    Dedup(SubtypeValues(rows))
  }

  /** Reading the kinds of two consecutive slices of the table reads them one after the other. */
  lemma {:induction false} SubtypeValuesConcat(a: seq<Standard>, b: seq<Standard>)
    ensures SubtypeValues(a + b) == SubtypeValues(a) + SubtypeValues(b)
    decreases |a|
  {
    if |a| == 0 {
      assert a + b == b;
    } else {
      assert (a + b)[0] == a[0];
      assert (a + b)[1..] == a[1..] + b;
      SubtypeValuesConcat(a[1..], b);
    }
  }

  /** A kind is read before position `m` of the kinds exactly when its first reading is before `m`. */
  lemma ReadBefore(v: seq<string>, s: string, m: nat)
    requires s in v && m <= |v|
    ensures s in v[..m] <==> IndexOf(v, s) < m
  {
  }

  /** The first row of a kind, by position in the table. */
  function FirstOfKind(rows: seq<Standard>, s: string): (p: nat)
    requires exists x :: x in rows && x.subtype == Some(s)
    ensures p < |rows| && rows[p].subtype == Some(s)
    ensures forall q :: 0 <= q < p ==> rows[q].subtype != Some(s)
    decreases |rows|
  {
    if rows[0].subtype == Some(s) then 0
    else
      assert exists x :: x in rows[1..] && x.subtype == Some(s);
      1 + FirstOfKind(rows[1..], s)
  }

  /** The kinds of the first `n` rows are the first kinds read from the table. */
  lemma ValuesOfPrefix(rows: seq<Standard>, n: nat)
    requires n <= |rows|
    ensures |SubtypeValues(rows[..n])| <= |SubtypeValues(rows)|
    ensures SubtypeValues(rows[..n]) == SubtypeValues(rows)[..|SubtypeValues(rows[..n])|]
  {
    assert rows == rows[..n] + rows[n..];
    SubtypeValuesConcat(rows[..n], rows[n..]);
  }

  /** A kind read from the first `n` rows belongs to one of those rows. */
  lemma KindInPrefix(rows: seq<Standard>, n: nat, s: string)
    requires n <= |rows| && s in SubtypeValues(rows[..n])
    ensures exists p :: 0 <= p < n && rows[p].subtype == Some(s)
  {
    var x :| x in rows[..n] && x.subtype == Some(s);
    var p :| 0 <= p < n && rows[..n][p] == x;
  }

  /**
   * When a kind is first read before another, a row of the first kind comes before the
   * first row of the second.
   */
  lemma RowBeforeFirstOfKind(rows: seq<Standard>, a: string, b: string)
    requires a in SubtypeValues(rows) && b in SubtypeValues(rows)
    requires IndexOf(SubtypeValues(rows), a) < IndexOf(SubtypeValues(rows), b)
    ensures exists p :: 0 <= p < FirstOfKind(rows, b) && rows[p].subtype == Some(a)
  {
    var v := SubtypeValues(rows);
    var q0 := FirstOfKind(rows, b);
    ValuesOfPrefix(rows, q0 + 1);
    var m := |SubtypeValues(rows[..q0 + 1])|;
    KindOfRowRead(rows, q0 + 1, q0);
    ReadBefore(v, b, m);
    ReadBefore(v, a, m);
    assert a in SubtypeValues(rows[..q0 + 1]);
    KindInPrefix(rows, q0 + 1, a);
    var p :| 0 <= p < q0 + 1 && rows[p].subtype == Some(a);
    assert a != b;
    assert p < q0;
  }

  /** The kind of a row among the first `n` is read from those rows. */
  lemma KindOfRowRead(rows: seq<Standard>, n: nat, p: nat)
    requires p < n <= |rows| && rows[p].subtype.Some?
    ensures rows[p].subtype.value in SubtypeValues(rows[..n])
  {
    assert rows[..n][p] == rows[p];
  }

  /**
   * The kinds are listed in the order of the table: the first row of an earlier kind comes
   * before every row of a later kind, as `unique()` keeps first-seen order.
   */
  lemma SubtypesInRowOrder(rows: seq<Standard>, i: nat, j: nat)
    requires i < j < |Subtypes(rows)|
    ensures exists p :: (0 <= p < |rows| && rows[p].subtype == Some(Subtypes(rows)[i])
      && forall q :: 0 <= q < |rows| && rows[q].subtype == Some(Subtypes(rows)[j]) ==> p < q)
  {
    var v := SubtypeValues(rows);
    var a, b := Subtypes(rows)[i], Subtypes(rows)[j];
    DedupFirstSeen(v, i, j);
    RowBeforeFirstOfKind(rows, a, b);
  }

  /** One group of the block: an optional heading, the optional "pupil can" lead, its rows. */
  datatype Section = Section(heading: Option<string>, pupilLead: bool, rows: seq<Standard>)

  function SubtypeMask(s: string): Standard -> bool {
    (x: Standard) => x.subtype == Some(s)
  }

  /** The group of kind `s`; the introduction and the `none` kind are shown without heading. */
  function SectionOf(rows: seq<Standard>, s: string, pupilLead: bool): Section {
    var titled := s != Intro && s != "none";
    Section(if titled then Some(s) else None, titled && pupilLead, Keep(rows, SubtypeMask(s)))
  }

  /**
   * The grouping of `divide_by_typ_standardu`: one group per kind, or a single untitled
   * group of all rows when no row has a kind.
   */
  function Sections(rows: seq<Standard>, pupilLead: bool): (r: seq<Section>)
    ensures |Subtypes(rows)| == 0 ==> r == [Section(None, pupilLead, rows)]
    ensures |Subtypes(rows)| > 0 ==> |r| == |Subtypes(rows)|
  {
    var kinds := Subtypes(rows);
    if |kinds| == 0 then [Section(None, pupilLead, rows)]
    else Apply(kinds, s => SectionOf(rows, s, pupilLead))
  }

  /**
   * When some row has a kind, a row is shown in a group exactly when it has a kind
   * (rows without one are dropped), in the group of that kind and in no other.
   */
  lemma SectionsPartitionRows(rows: seq<Standard>, pupilLead: bool, x: Standard)
    requires |Subtypes(rows)| > 0 && x in rows
    ensures (exists i :: 0 <= i < |Sections(rows, pupilLead)| && x in Sections(rows, pupilLead)[i].rows)
      <==> x.subtype.Some?
    ensures forall i, j :: 0 <= i < j < |Sections(rows, pupilLead)| ==>
      !(x in Sections(rows, pupilLead)[i].rows && x in Sections(rows, pupilLead)[j].rows)
  {
    var kinds := Subtypes(rows);
    var r := Sections(rows, pupilLead);
    forall i | 0 <= i < |r| ensures x in r[i].rows <==> x.subtype == Some(kinds[i]) {
      SectionMembers(rows, pupilLead, i);
    }
    if x.subtype.Some? {
      var i := IndexOf(kinds, x.subtype.value);
      assert x in r[i].rows;
    }
  }

  /** The group of the `i`-th kind holds exactly the rows of that kind. */
  lemma SectionMembers(rows: seq<Standard>, pupilLead: bool, i: nat)
    requires i < |Subtypes(rows)|
    ensures forall x :: x in Sections(rows, pupilLead)[i].rows <==> x in rows && x.subtype == Some(Subtypes(rows)[i])
  {
  }

  /** The groups follow the table: some row of an earlier group comes before every row of a later one. */
  lemma SectionsInRowOrder(rows: seq<Standard>, pupilLead: bool, i: nat, j: nat)
    requires i < j < |Subtypes(rows)|
    ensures exists p :: (0 <= p < |rows| && rows[p] in Sections(rows, pupilLead)[i].rows
      && forall q :: 0 <= q < |rows| && rows[q] in Sections(rows, pupilLead)[j].rows ==> p < q)
  {
    SubtypesInRowOrder(rows, i, j);
    SectionMembers(rows, pupilLead, i);
    SectionMembers(rows, pupilLead, j);
  }

  /** A group takes its heading from its kind unless the kind is the introduction or `none`. */
  lemma SectionHeadings(rows: seq<Standard>, pupilLead: bool, i: nat)
    requires |Subtypes(rows)| > 0 && i < |Subtypes(rows)|
    ensures var sec := Sections(rows, pupilLead)[i];
      var s := Subtypes(rows)[i];
      (sec.heading.Some? <==> s != Intro && s != "none")
      && (sec.heading.Some? ==> sec.heading.value == s)
      && (sec.pupilLead <==> sec.heading.Some? && pupilLead)
      && forall x :: x in sec.rows <==> x in rows && x.subtype == Some(s)
  {
  }

  function DefinitionOf(x: Standard): Option<string> {
    x.definition
  }

  /** What a group puts on the page: its definitions, rendered as one block. */
  function SectionRendering(sec: Section): Option<Rendering> {
    Rendered(Apply(sec.rows, DefinitionOf))
  }

  /**
   * `divide_by_typ_standardu`: the id tooltips are inserted first, then every group is
   * rendered. When the tooltip pass cannot run, nothing is grouped and the table is left
   * as it was.
   */
  method DivideBySubtype(t: StandardTable, pupilLead: bool)
    returns (ok: bool, sections: seq<Section>, renderings: seq<Option<Rendering>>)
    modifies t.rows
    ensures ok <==> forall m :: 0 <= m < t.rows.Length ==> TooltipReady(old(t.rows[m]))
    ensures ok ==> forall m :: 0 <= m < t.rows.Length ==> t.rows[m] == WithTooltip(old(t.rows[m]))
    ensures !ok ==> t.rows[..] == old(t.rows[..])
    ensures ok ==> sections == Sections(t.rows[..], pupilLead)
    ensures !ok ==> sections == [] && renderings == []
    ensures |renderings| == |sections|
    ensures forall i :: 0 <= i < |sections| ==> renderings[i] == SectionRendering(sections[i])
  {
    ok := t.InsertIdTooltips();
    if !ok {
      return false, [], [];
    }
    sections := Sections(t.rows[..], pupilLead);
    renderings := RenderSections(sections);
  }

  /** Every group rendered in turn, as the loop over the kinds of standard does. */
  method RenderSections(sections: seq<Section>) returns (renderings: seq<Option<Rendering>>)
    ensures |renderings| == |sections|
    ensures forall i :: 0 <= i < |sections| ==> renderings[i] == SectionRendering(sections[i])
  {
    renderings := [];
    var i := 0;
    while i < |sections|
      invariant 0 <= i <= |sections|
      invariant renderings == Apply(sections[..i], SectionRendering)
    {
      var out := RenderItems(Apply(sections[i].rows, DefinitionOf));
      ApplyStep(sections, SectionRendering, i);
      renderings := renderings + [out];
      i := i + 1;
    }
    assert sections[..|sections|] == sections;
  }

  // ---------------------------------------------------------------------------
  // Literacy legend
  // ---------------------------------------------------------------------------

  /** One legend line: the filter tag and its icons. */
  function LegendLine(e: (string, string)): string {
    e.0 + " " + e.1
  }

  /**
   * The legend of a tag-to-icons table: a line break, then every tag with its icons,
   * each closed by a line break. The page builds it from `LegendTable`.
   */
  function LegendText(table: seq<(string, string)>): string {
    "<br>" + Suffixed(Apply(table, LegendLine), " <br>")
  }

  /** `get_legenda_gramotnost`, over the legend table it is given. */
  method Legend(table: seq<(string, string)>) returns (text: string)
    ensures text == LegendText(table)
  {
    ghost var lines := Apply(table, LegendLine);
    text := "<br>";
    var i := 0;
    while i < |table|
      invariant 0 <= i <= |table|
      invariant text == "<br>" + Suffixed(lines[..i], " <br>")
    {
      LegendStep(table, i);
      text := text + (LegendLine(table[i]) + " <br>");
      i := i + 1;
    }
    assert lines[..|table|] == lines;
  }

  /** One more entry adds its line and a line break. */
  lemma LegendStep(table: seq<(string, string)>, i: nat)
    requires i < |table|
    ensures var lines := Apply(table, LegendLine);
      "<br>" + Suffixed(lines[..i + 1], " <br>")
      == ("<br>" + Suffixed(lines[..i], " <br>")) + (LegendLine(table[i]) + " <br>")
  {
    var lines := Apply(table, LegendLine);
    assert lines[i] == LegendLine(table[i]);
    SuffixedStep(lines, i, " <br>");
    ConcatAssoc("<br>", Suffixed(lines[..i], " <br>"), lines[i] + " <br>");
  }

  /** Every filter tag is listed in the legend beside its icons. */
  lemma LegendListsEveryTag(j: nat)
    requires j < |LegendTable|
    ensures Contains(LegendText(LegendTable), LegendTable[j].0 + " " + LegendTable[j].1)
  {
    var lines := Apply(LegendTable, LegendLine);
    SuffixedContainsItem(lines, " <br>", j);
    ContainsPrepend("<br>", Suffixed(lines, " <br>"), lines[j]);
  }

  /** The legend's tags are exactly the tags the literacy filter offers. */
  lemma LegendTagsAreFilterTags()
    ensures forall j :: 0 <= j < |LegendTable| ==> LegendTable[j].0 in LiteracyTags()
    ensures forall t :: t in LiteracyTags() ==> exists j :: 0 <= j < |LegendTable| && LegendTable[j].0 == t
  {
    assert LegendTable[0].0 == ReadingVisual && LegendTable[1].0 == Digital;
    assert LegendTable[2].0 == Financial && LegendTable[3].0 == Civic;
    assert LegendTable[4].0 == Environmental && LegendTable[5].0 == SocialEmotional;
  }
}

=== FILE: search_results.dfy ===
/**
 * The placement label printed under each search hit (eskvp.py:139-152): the row's
 * subject, cycle, kind, component, theme, kind of standard and id separated by bars,
 * with placeholder `none` values and the empty slots they leave removed.
 */
module SearchResults {
  import opened Wrappers
  import opened Text
  import opened Seqs
  import opened Catalogue

  const Sep: string := " | "

  /** A cell of the hit table; missing values have been filled with the empty string. */
  function Cell(v: Option<string>): string {
    v.GetOr("")
  }

  /** The cycle as the label prints it, e.g. `3. cyklus`. */
  function CycleField(cycle: nat): string {
    DecimalString(cycle) + ". cyklus"
  }

  /** The seven slots of the label, in order. */
  function LabelFields(x: Standard): seq<string> {
    [x.subject, CycleField(x.cycle), Cell(x.kind), Cell(x.component), Cell(x.theme), Cell(x.subtype), x.id]
  }

  function DropNone(f: string): string {
    ReplaceAll(f, "none", "")
  }

  /**
   * The label as the page builds it: the slots joined by bars, every `none` deleted,
   * then every `|  |  |` and after that every `|  |` collapsed to one bar.
   */
  function SearchLabel(x: Standard): (r: string)
    ensures |r| <= |Join(LabelFields(x), Sep)|
  {
    Cleanup(Join(LabelFields(x), Sep))
  }

  /**
   * The three replacements, in the order the page applies them. Each one only deletes
   * or shortens, so the label is never longer than the raw text.
   */
  function Cleanup(raw: string): (r: string)
    ensures |r| <= |raw|
  {
    var cleared := ReplaceAll(raw, "none", "");
    var merged := ReplaceAll(cleared, "|  |  |", "|");
    ReplaceAllShrinks(raw, "none", "");
    ReplaceAllShrinks(cleared, "|  |  |", "|");
    ReplaceAllShrinks(merged, "|  |", "|");
    ReplaceAll(merged, "|  |", "|")
  }

  /** A slot with nothing to show: empty, or the `none` placeholder. */
  predicate Blank(f: string) {
    f == "" || f == "none"
  }

  function ShownMask(): string -> bool {
    f => !Blank(f)
  }

  /**
   * The label as intended: the slots that are not blank, joined by bars. It shows every
   * slot that is not blank and, as long as no slot text holds a bar itself, never an
   * empty slot, whatever is blank.
   */
  function IntendedSearchLabel(x: Standard): (r: string)
    ensures forall f :: f in LabelFields(x) && !Blank(f) ==> Contains(r, f)
    ensures (forall f :: f in LabelFields(x) ==> '|' !in f) ==> !Contains(r, "|  |")
  {
    ShownSlots(LabelFields(x));
    Join(Keep(LabelFields(x), ShownMask()), Sep)
  }

  /** A slot text the label can carry unchanged: no bar, no `none`, not starting with a space. */
  predicate Proper(f: string) {
    |f| > 0 && f[0] != ' ' && '|' !in f && !Contains(f, "none")
  }

  // ---------------------------------------------------------------------------
  // The three replacements, step by step
  // ---------------------------------------------------------------------------

  /** Deleting `none` acts on each slot separately: the separators hold no letter of it. */
  lemma {:induction false} DropNoneInJoin(items: seq<string>)
    ensures ReplaceAll(Join(items, Sep), "none", "") == Join(Apply(items, DropNone), Sep)
    decreases |items|
  {
    if |items| > 1 {
      var n := |items|;
      var init := items[..n - 1];
      JoinLast(items, Sep);
      JoinLast(Apply(items, DropNone), Sep);
      ApplyPrefix(items, DropNone, n - 1);
      DropNoneInJoin(init);
      DropNoneAcrossSep(Join(init, Sep), items[n - 1]);
    }
  }

  /** The last separator keeps the deletion on either side of it apart. */
  lemma DropNoneAcrossSep(j: string, last: string)
    ensures ReplaceAll(j + (Sep + last), "none", "") == ReplaceAll(j, "none", "") + (Sep + DropNone(last))
  {
    ReplaceAllConcat(j, Sep + last, "none", "");
    ReplaceAllNoStart(Sep, last, "none", "");
  }

  lemma DropNoneProper(f: string)
    requires Proper(f)
    ensures DropNone(f) == f
  {
    ReplaceAllAbsent(f, "none", "");
  }

  lemma DropNoneBlank(f: string)
    requires Blank(f)
    ensures DropNone(f) == ""
  {
    if f == "none" {
      ReplaceAllLeading("", "none", "");
      assert f + "" == f;
    }
  }

  /**
   * A bar followed by one space and then a non-space cannot start a pattern that
   * begins `|  `: the bar is copied and the scan moves on.
   */
  lemma BarMiss(w: string, p: string, r: string)
    requires |p| >= 3 && p[0] == '|' && p[1] == ' ' && p[2] == ' '
    requires |w| > 0 && w[0] != ' '
    ensures ReplaceAll("|" + (" " + w), p, r) == "|" + ReplaceAll(" " + w, p, r)
  {
    var t := "|" + (" " + w);
    assert t[2] == w[0];
    assert t[1..] == " " + w;
  }

  /** The separator spelled one character at a time. */
  lemma SepSpelled(w: string)
    ensures Sep + w == " " + ("|" + (" " + w))
  {
  }

  /**
   * Past a separator and a proper slot, a bar pattern starting `|  ` finds nothing:
   * the separator's bar is followed by one space and then the slot.
   */
  lemma SkipField(f: string, z: string, p: string, r: string)
    requires |p| >= 3 && p[0] == '|' && p[1] == ' ' && p[2] == ' '
    requires |f| > 0 && f[0] != ' ' && '|' !in f
    ensures ReplaceAll(Sep + (f + z), p, r) == Sep + (f + ReplaceAll(z, p, r))
  {
    SepSpelled(f + z);
    SepSpelled(f + ReplaceAll(z, p, r));
    ReplaceAllNoStart(" ", "|" + (" " + (f + z)), p, r);
    BarMiss(f + z, p, r);
    ReplaceAllNoStart(" ", f + z, p, r);
    ReplaceAllNoStart(f, z, p, r);
  }

  /** A cycle is printed as digits and `. cyklus`, which is a proper slot. */
  lemma CycleFieldProper(cycle: nat)
    ensures Proper(CycleField(cycle))
  {
    var f := CycleField(cycle);
    var d := DecimalString(cycle);
    assert forall i :: 0 <= i < |f| ==> f[i] != 'n' && f[i] != '|' by {
      forall i | 0 <= i < |f| ensures f[i] != 'n' && f[i] != '|' {
        if i < |d| {
          assert f[i] == d[i];
        } else {
          assert f[i] == ". cyklus"[i - |d|];
        }
      }
    }
    MissingCharNotContained(f, "none", 'n');
  }

  // ---------------------------------------------------------------------------
  // Where the bars can fall
  // ---------------------------------------------------------------------------

  /** Any two bars are at least four positions apart. */
  predicate BarsApart(s: string) {
    forall i, j :: 0 <= i < j < |s| && s[i] == '|' && s[j] == '|' ==> j - i >= 4
  }

  /** Every bar is followed by at least two more characters. */
  predicate NoBarAtEnd(s: string) {
    forall i :: 0 <= i < |s| && s[i] == '|' ==> i + 3 <= |s|
  }

  /** Joining slots that are non-empty and bar-free never puts two bars close together. */
  lemma {:induction false} JoinBarsApart(items: seq<string>)
    requires forall i :: 0 <= i < |items| ==> |items[i]| > 0 && '|' !in items[i]
    ensures BarsApart(Join(items, Sep)) && NoBarAtEnd(Join(items, Sep))
    decreases |items|
  {
    if |items| > 1 {
      var init := items[..|items| - 1];
      JoinBarsApart(init);
      JoinLast(items, Sep);
      BarsApartStep(Join(init, Sep), items[|items| - 1]);
    }
  }

  /** Where a bar of a slot joined after a separator can stand. */
  lemma BarAt(j: string, last: string, k: nat)
    requires k < |j + (Sep + last)| && (j + (Sep + last))[k] == '|'
    ensures (k < |j| && j[k] == '|') || k == |j| + 1 || (|j| + 3 <= k && last[k - |j| - 3] == '|')
  {
    var s := j + (Sep + last);
    if k < |j| {
      assert s[k] == j[k];
    } else if k >= |j| + 3 {
      assert s[k] == last[k - |j| - 3];
    } else {
      assert s[k] == Sep[k - |j|];
    }
  }

  /** One more separator and bar-free slot keep the bars apart and off the end. */
  lemma BarsApartStep(j: string, last: string)
    requires BarsApart(j) && NoBarAtEnd(j) && |last| > 0 && '|' !in last
    ensures BarsApart(j + (Sep + last)) && NoBarAtEnd(j + (Sep + last))
  {
    var s := j + (Sep + last);
    forall i, k | 0 <= i < k < |s| && s[i] == '|' && s[k] == '|' ensures k - i >= 4 {
      BarAt(j, last, i);
      BarAt(j, last, k);
    }
    forall i | 0 <= i < |s| && s[i] == '|' ensures i + 3 <= |s| {
      BarAt(j, last, i);
    }
  }

  /** A bar at `i` and another at `i + 3`, found from an occurrence of such a pattern. */
  lemma SlotAt(s: string, p: string) returns (i: nat)
    requires Contains(s, p) && |p| >= 4 && p[0] == '|' && p[3] == '|'
    ensures i + 3 < |s| && s[i] == '|' && s[i + 3] == '|'
  {
    i := ContainsAt(s, p);
    assert s[i..i + |p|][0] == s[i] && s[i..i + |p|][3] == s[i + 3];
  }

  /** Where bars stand apart, no empty slot `|  |` (and no `|  |  |`) can occur. */
  lemma NoEmptySlot(s: string, p: string)
    requires BarsApart(s) && |p| >= 4 && p[0] == '|' && p[3] == '|'
    ensures !Contains(s, p)
  {
    if Contains(s, p) {
      var i := SlotAt(s, p);
      assert false;
    }
  }

  // ---------------------------------------------------------------------------
  // What the label comes out as
  // ---------------------------------------------------------------------------

  /** Deleting `none` slot by slot. */
  lemma ClearSlots(items: seq<string>, cleared: seq<string>)
    requires |cleared| == |items|
    requires forall i :: 0 <= i < |items| ==> cleared[i] == DropNone(items[i])
    ensures ReplaceAll(Join(items, Sep), "none", "") == Join(cleared, Sep)
  {
    DropNoneInJoin(items);
    assert Apply(items, DropNone) == cleared;
  }

  /** A proper slot is not blank. */
  lemma ProperNotBlank(f: string)
    requires Proper(f)
    ensures !Blank(f)
  {
    assert StartsWith("none", "none");
  }

  /** With no blank slot none of the three replacements finds anything. */
  lemma CleanupProper(items: seq<string>)
    requires forall i :: 0 <= i < |items| ==> Proper(items[i])
    ensures Cleanup(Join(items, Sep)) == Join(items, Sep)
  {
    ClearProper(items);
    BarPassesIdle(items);
  }

  /** Proper slots lose nothing when `none` is deleted. */
  lemma ClearProper(items: seq<string>)
    requires forall i :: 0 <= i < |items| ==> Proper(items[i])
    ensures ReplaceAll(Join(items, Sep), "none", "") == Join(items, Sep)
  {
    forall i | 0 <= i < |items| ensures items[i] == DropNone(items[i]) {
      DropNoneProper(items[i]);
    }
    ClearSlots(items, items);
  }

  /** Non-empty slots without bars give neither bar pattern anything to collapse. */
  lemma BarPassesIdle(items: seq<string>)
    requires forall i :: 0 <= i < |items| ==> |items[i]| > 0 && '|' !in items[i]
    ensures ReplaceAll(Join(items, Sep), "|  |  |", "|") == Join(items, Sep)
    ensures ReplaceAll(Join(items, Sep), "|  |", "|") == Join(items, Sep)
  {
    var raw := Join(items, Sep);
    JoinBarsApart(items);
    NoEmptySlot(raw, "|  |  |");
    ReplaceAllAbsent(raw, "|  |  |", "|");
    NoEmptySlot(raw, "|  |");
    ReplaceAllAbsent(raw, "|  |", "|");
  }

  /** With no blank slot the label is every slot joined by bars, as intended. */
  lemma LabelWithoutBlanks(x: Standard)
    requires forall f :: f in LabelFields(x) ==> Proper(f)
    ensures SearchLabel(x) == Join(LabelFields(x), Sep) == IntendedSearchLabel(x)
  {
    var fields := LabelFields(x);
    assert forall i :: 0 <= i < |fields| ==> fields[i] in fields;
    CleanupProper(fields);
    forall f | f in fields ensures ShownMask()(f) {
      ProperNotBlank(f);
    }
    KeepAll(fields, ShownMask());
  }

  /** Five slots joined, read from the front. */
  lemma JoinFive(a: string, b: string, c: string, d: string, e: string)
    ensures Join([a, b, c, d, e], Sep) == a + (Sep + (b + (Sep + (c + (Sep + (d + (Sep + e)))))))
  {
    var s := [a, b, c, d, e];
    assert s == [a] + s[1..] && s[1..] == [b] + s[2..] && s[2..] == [c] + s[3..];
    assert s[3..] == [d] + s[4..] && s[4..] == [e];
    JoinCons(a, s[1..], Sep);
    JoinCons(b, s[2..], Sep);
    JoinCons(c, s[3..], Sep);
    JoinCons(d, s[4..], Sep);
  }

  /** Seven slots with the theme and the kind of standard emptied: three bars in a row. */
  lemma JoinTwoEmpty(a: string, b: string, c: string, d: string, e: string)
    ensures Join([a, b, c, d, "", "", e], Sep)
      == a + (Sep + (b + (Sep + (c + (Sep + (d + (" " + ("|  |  |" + (" " + e)))))))))
  {
    var s := [a, b, c, d, "", "", e];
    assert Join(s[6..], Sep) == e by {
      assert s[6..] == [e];
    }
    assert Join(s[5..], Sep) == Sep + e by {
      assert s[5..] == [""] + s[6..];
      JoinCons("", s[6..], Sep);
    }
    assert Join(s[4..], Sep) == Sep + (Sep + e) by {
      assert s[4..] == [""] + s[5..];
      JoinCons("", s[5..], Sep);
    }
    assert Join(s[3..], Sep) == d + (Sep + (Sep + (Sep + e))) by {
      assert s[3..] == [d] + s[4..];
      JoinCons(d, s[4..], Sep);
    }
    assert Join(s[2..], Sep) == c + (Sep + (d + (Sep + (Sep + (Sep + e))))) by {
      assert s[2..] == [c] + s[3..];
      JoinCons(c, s[3..], Sep);
    }
    assert Join(s[1..], Sep) == b + (Sep + (c + (Sep + (d + (Sep + (Sep + (Sep + e))))))) by {
      assert s[1..] == [b] + s[2..];
      JoinCons(b, s[2..], Sep);
    }
    assert Join(s, Sep) == a + (Sep + (b + (Sep + (c + (Sep + (d + (Sep + (Sep + (Sep + e))))))))) by {
      assert s == [a] + s[1..];
      JoinCons(a, s[1..], Sep);
    }
    ThreeSeparators(e);
  }

  /** Three separators in a row are a run of three bars. */
  lemma ThreeSeparators(e: string)
    ensures Sep + (Sep + (Sep + e)) == " " + ("|  |  |" + (" " + e))
  {
    assert Sep + Sep + Sep == " " + "|  |  |" + " ";
  }

  /** The run of three bars left by two empty slots collapses to one bar. */
  lemma CollapseTwoEmpty(a: string, b: string, c: string, d: string, e: string)
    requires '|' !in a && '|' !in e
    requires |b| > 0 && b[0] != ' ' && '|' !in b
    requires |c| > 0 && c[0] != ' ' && '|' !in c
    requires |d| > 0 && d[0] != ' ' && '|' !in d
    ensures ReplaceAll(a + (Sep + (b + (Sep + (c + (Sep + (d + (" " + ("|  |  |" + (" " + e))))))))), "|  |  |", "|")
      == a + (Sep + (b + (Sep + (c + (Sep + (d + (Sep + e)))))))
  {
    var p := "|  |  |";
    var tail := " " + (p + (" " + e));
    TailTwoEmpty(e);
    var x3 := Sep + (d + tail);
    assert ReplaceAll(x3, p, "|") == Sep + (d + (Sep + e)) by {
      SkipField(d, tail, p, "|");
    }
    var x2 := Sep + (c + x3);
    assert ReplaceAll(x2, p, "|") == Sep + (c + (Sep + (d + (Sep + e)))) by {
      SkipField(c, x3, p, "|");
    }
    var x1 := Sep + (b + x2);
    assert ReplaceAll(x1, p, "|") == Sep + (b + (Sep + (c + (Sep + (d + (Sep + e)))))) by {
      SkipField(b, x2, p, "|");
    }
    ReplaceAllNoStart(a, x1, p, "|");
  }

  /** The three bars before the id collapse to one separator. */
  lemma TailTwoEmpty(e: string)
    requires '|' !in e
    ensures ReplaceAll(" " + ("|  |  |" + (" " + e)), "|  |  |", "|") == Sep + e
  {
    var p := "|  |  |";
    ReplaceAllHead(' ', p + (" " + e), p, "|");
    ReplaceAllLeading(" " + e, p, "|");
    ReplaceAllNoStart(" ", e, p, "|");
    MissingCharNotContained(e, p, '|');
    ReplaceAllAbsent(e, p, "|");
    SepSpelled(e);
  }

  /** What is left of the slots joins without an empty slot, so the last pass finds nothing. */
  lemma LastPassIdle(items: seq<string>)
    requires forall i :: 0 <= i < |items| ==> |items[i]| > 0 && '|' !in items[i]
    ensures ReplaceAll(Join(items, Sep), "|  |", "|") == Join(items, Sep)
  {
    JoinBarsApart(items);
    NoEmptySlot(Join(items, Sep), "|  |");
    ReplaceAllAbsent(Join(items, Sep), "|  |", "|");
  }

  /** The intended label of a hit with blank theme and kind of standard keeps the other five. */
  lemma KeepTwoEmpty(a: string, b: string, c: string, d: string, t: string, s: string, e: string)
    requires !Blank(a) && !Blank(b) && !Blank(c) && !Blank(d) && !Blank(e) && Blank(t) && Blank(s)
    ensures Keep([a, b, c, d, t, s, e], ShownMask()) == [a, b, c, d, e]
  {
    SevenSlots(a, b, c, d, t, s, e);
    KeepShown([a, b, c, d]);
    KeepBlanksThenId(t, s, e);
    KeepConcat([a, b, c, d], [t, s] + [e], ShownMask());
  }

  /** Slots that are not blank are all kept. */
  lemma KeepShown(fs: seq<string>)
    requires forall i :: 0 <= i < |fs| ==> !Blank(fs[i])
    ensures Keep(fs, ShownMask()) == fs
  {
    KeepAll(fs, ShownMask());
  }

  /** Two blank slots and the id keep only the id. */
  lemma KeepBlanksThenId(t: string, s: string, e: string)
    requires Blank(t) && Blank(s) && !Blank(e)
    ensures Keep([t, s] + [e], ShownMask()) == [e]
  {
    KeepAll([e], ShownMask());
    KeepNone([t, s], ShownMask());
    KeepConcat([t, s], [e], ShownMask());
  }

  /** The seven slots as the shown four, the two blanks and the id. */
  lemma SevenSlots(a: string, b: string, c: string, d: string, t: string, s: string, e: string)
    ensures [a, b, c, d, t, s, e] == [a, b, c, d] + ([t, s] + [e])
    ensures [a, b, c, d] + [e] == [a, b, c, d, e]
  {
  }

  /** Deleting `none` from the slots of a hit with blank theme and kind of standard. */
  lemma ClearTwoEmpty(x: Standard)
    requires Proper(x.subject) && Proper(Cell(x.kind)) && Proper(Cell(x.component)) && Proper(x.id)
    requires Blank(Cell(x.theme)) && Blank(Cell(x.subtype))
    ensures ReplaceAll(Join(LabelFields(x), Sep), "none", "")
      == Join([x.subject, CycleField(x.cycle), Cell(x.kind), Cell(x.component), "", "", x.id], Sep)
  {
    CycleFieldProper(x.cycle);
    DropNoneProper(x.subject);
    DropNoneProper(CycleField(x.cycle));
    DropNoneProper(Cell(x.kind));
    DropNoneProper(Cell(x.component));
    DropNoneProper(x.id);
    DropNoneBlank(Cell(x.theme));
    DropNoneBlank(Cell(x.subtype));
    ClearSlots(LabelFields(x), [x.subject, CycleField(x.cycle), Cell(x.kind), Cell(x.component), "", "", x.id]);
  }

  /** The intended label of such a hit is its five remaining slots joined. */
  lemma IntendedTwoEmpty(x: Standard)
    requires Proper(x.subject) && Proper(Cell(x.kind)) && Proper(Cell(x.component)) && Proper(x.id)
    requires Blank(Cell(x.theme)) && Blank(Cell(x.subtype))
    ensures IntendedSearchLabel(x) == Join([x.subject, CycleField(x.cycle), Cell(x.kind), Cell(x.component), x.id], Sep)
  {
    CycleFieldProper(x.cycle);
    ProperNotBlank(x.subject);
    ProperNotBlank(CycleField(x.cycle));
    ProperNotBlank(Cell(x.kind));
    ProperNotBlank(Cell(x.component));
    ProperNotBlank(x.id);
    KeepTwoEmpty(x.subject, CycleField(x.cycle), Cell(x.kind), Cell(x.component), Cell(x.theme), Cell(x.subtype), x.id);
  }

  /** The five slots that remain pass the last replacement unchanged. */
  lemma FiveSlotsIdle(a: string, b: string, c: string, d: string, e: string)
    requires Proper(a) && Proper(b) && Proper(c) && Proper(d) && Proper(e)
    ensures ReplaceAll(a + (Sep + (b + (Sep + (c + (Sep + (d + (Sep + e))))))), "|  |", "|")
      == Join([a, b, c, d, e], Sep)
  {
    JoinFive(a, b, c, d, e);
    var s := [a, b, c, d, e];
    assert forall i :: 0 <= i < |s| ==> |s[i]| > 0 && '|' !in s[i];
    LastPassIdle(s);
  }

  /**
   * With the theme and the kind of standard blank (the example in the documentation
   * of `show_search_results`), the two empty slots are removed and the label is the
   * five remaining slots joined by bars, as intended.
   */
  lemma LabelWithBlankThemeAndSubtype(x: Standard)
    requires Proper(x.subject) && Proper(Cell(x.kind)) && Proper(Cell(x.component)) && Proper(x.id)
    requires Blank(Cell(x.theme)) && Blank(Cell(x.subtype))
    ensures SearchLabel(x)
      == Join([x.subject, CycleField(x.cycle), Cell(x.kind), Cell(x.component), x.id], Sep)
      == IntendedSearchLabel(x)
  {
    CycleFieldProper(x.cycle);
    ClearTwoEmpty(x);
    JoinTwoEmpty(x.subject, CycleField(x.cycle), Cell(x.kind), Cell(x.component), x.id);
    CollapseTwoEmpty(x.subject, CycleField(x.cycle), Cell(x.kind), Cell(x.component), x.id);
    FiveSlotsIdle(x.subject, CycleField(x.cycle), Cell(x.kind), Cell(x.component), x.id);
    IntendedTwoEmpty(x);
  }

  /** Seven slots with the four middle ones emptied: five bars in a row. */
  lemma JoinFourEmpty(a: string, b: string, e: string)
    ensures Join([a, b, "", "", "", "", e], Sep) == a + (Sep + (b + (" " + ("|  |  |" + ("  |  | " + e)))))
  {
    var s := [a, b, "", "", "", "", e];
    assert Join(s[6..], Sep) == e by {
      assert s[6..] == [e];
    }
    assert Join(s[5..], Sep) == Sep + e by {
      assert s[5..] == [""] + s[6..];
      JoinCons("", s[6..], Sep);
    }
    assert Join(s[4..], Sep) == Sep + (Sep + e) by {
      assert s[4..] == [""] + s[5..];
      JoinCons("", s[5..], Sep);
    }
    assert Join(s[3..], Sep) == Sep + (Sep + (Sep + e)) by {
      assert s[3..] == [""] + s[4..];
      JoinCons("", s[4..], Sep);
    }
    assert Join(s[2..], Sep) == Sep + (Sep + (Sep + (Sep + e))) by {
      assert s[2..] == [""] + s[3..];
      JoinCons("", s[3..], Sep);
    }
    assert Join(s[1..], Sep) == b + (Sep + (Sep + (Sep + (Sep + (Sep + e))))) by {
      assert s[1..] == [b] + s[2..];
      JoinCons(b, s[2..], Sep);
    }
    assert Join(s, Sep) == a + (Sep + (b + (Sep + (Sep + (Sep + (Sep + (Sep + e))))))) by {
      assert s == [a] + s[1..];
      JoinCons(a, s[1..], Sep);
    }
    FiveSeparators(e);
  }

  /** Five separators in a row, cut where the first collapse finds its match. */
  lemma FiveSeparators(e: string)
    ensures Sep + (Sep + (Sep + (Sep + (Sep + e)))) == " " + ("|  |  |" + ("  |  | " + e))
  {
    assert Sep + Sep + Sep + Sep + Sep == " " + "|  |  |" + "  |  | ";
  }

  /** `  | ` before a slot that does not start with a space holds no pattern starting `|  `. */
  lemma LoneBarKept(e: string, p: string)
    requires |p| >= 3 && p[0] == '|' && p[1] == ' ' && p[2] == ' '
    requires |e| > 0 && e[0] != ' ' && '|' !in e
    ensures ReplaceAll("  | " + e, p, "|") == "  | " + e
  {
    LoneBarSpelled(e);
    ReplaceAllNoStart("  ", "|" + (" " + e), p, "|");
    BarMiss(e, p, "|");
    ReplaceAllNoStart(" ", e, p, "|");
    MissingCharNotContained(e, p, '|');
    ReplaceAllAbsent(e, p, "|");
  }

  lemma LoneBarSpelled(e: string)
    ensures "  | " + e == "  " + ("|" + (" " + e))
  {
  }

  /** The two bars after the first collapse are too close to the id to hold three. */
  lemma RestKept(e: string)
    requires |e| > 0 && e[0] != ' ' && '|' !in e
    ensures ReplaceAll("  |  | " + e, "|  |  |", "|") == "  |  | " + e
  {
    var p := "|  |  |";
    RestSpelled(e);
    ReplaceAllNoStart("  ", "|" + ("  | " + e), p, "|");
    ShortRunMiss(e);
    LoneBarKept(e, p);
  }

  lemma RestSpelled(e: string)
    ensures "  |  | " + e == "  " + ("|" + ("  | " + e))
  {
  }

  /** `|  | ` and a slot not starting with a space is no run of three bars. */
  lemma ShortRunMiss(e: string)
    requires |e| > 0 && e[0] != ' '
    ensures ReplaceAll("|" + ("  | " + e), "|  |  |", "|") == "|" + ReplaceAll("  | " + e, "|  |  |", "|")
  {
    NotRunOfThree(e);
    ReplaceAllSkip('|', "  | " + e, "|  |  |", "|");
  }

  lemma NotRunOfThree(e: string)
    requires |e| > 0 && e[0] != ' '
    ensures !StartsWith("|" + ("  | " + e), "|  |  |")
  {
    var u := "|" + ("  | " + e);
    assert u[5] == e[0];
    if |u| >= 7 {
      var p := "|  |  |";
      assert u[..7] != p by {
        assert u[..7][5] == e[0];
        assert p[5] == ' ';
      }
    }
  }

  /** The first pass collapses the first three of the five bars before the id. */
  lemma TailFourFirst(e: string)
    requires |e| > 0 && e[0] != ' ' && '|' !in e
    ensures ReplaceAll(" " + ("|  |  |" + ("  |  | " + e)), "|  |  |", "|") == " " + ("|" + ("  |  | " + e))
  {
    var p := "|  |  |";
    ReplaceAllHead(' ', p + ("  |  | " + e), p, "|");
    ReplaceAllLeading("  |  | " + e, p, "|");
    RestKept(e);
  }

  /** Of five bars in a row the first three collapse and the last two are left. */
  lemma CollapseFourEmptyFirst(a: string, b: string, e: string)
    requires '|' !in a
    requires |b| > 0 && b[0] != ' ' && '|' !in b
    requires |e| > 0 && e[0] != ' ' && '|' !in e
    ensures ReplaceAll(a + (Sep + (b + (" " + ("|  |  |" + ("  |  | " + e))))), "|  |  |", "|")
      == a + (Sep + (b + (" " + ("|" + ("  |  | " + e)))))
  {
    var p := "|  |  |";
    var tail := " " + (p + ("  |  | " + e));
    TailFourFirst(e);
    SkipField(b, tail, p, "|");
    ReplaceAllNoStart(a, Sep + (b + tail), p, "|");
  }

  /** The second pass collapses one pair of the three bars left and keeps the last. */
  lemma TailFourSecond(e: string)
    requires |e| > 0 && e[0] != ' ' && '|' !in e
    ensures ReplaceAll(" " + ("|" + ("  |  | " + e)), "|  |", "|") == " |  | " + e
  {
    var p := "|  |";
    MidSpelled(e);
    ReplaceAllHead(' ', p + ("  | " + e), p, "|");
    ReplaceAllLeading("  | " + e, p, "|");
    LoneBarKept(e, p);
  }

  lemma MidSpelled(e: string)
    ensures " " + ("|" + ("  |  | " + e)) == [' '] + ("|  |" + ("  | " + e))
    ensures [' '] + ("|" + ("  | " + e)) == " |  | " + e
  {
  }

  /** The next pass collapses one more pair of bars and leaves the last empty slot. */
  lemma CollapseFourEmptySecond(a: string, b: string, e: string)
    requires '|' !in a
    requires |b| > 0 && b[0] != ' ' && '|' !in b
    requires |e| > 0 && e[0] != ' ' && '|' !in e
    ensures ReplaceAll(a + (Sep + (b + (" " + ("|" + ("  |  | " + e))))), "|  |", "|")
      == a + (Sep + (b + (" |  | " + e)))
  {
    var p := "|  |";
    var mid := " " + ("|" + ("  |  | " + e));
    TailFourSecond(e);
    SkipField(b, mid, p, "|");
    ReplaceAllNoStart(a, Sep + (b + mid), p, "|");
  }

  /** The label with its empty slot does show `|  |`. */
  lemma EmptySlotShows(a: string, b: string, e: string)
    ensures Contains(a + (Sep + (b + (" |  | " + e))), "|  |")
  {
    var head := a + Sep + b + " ";
    var rest := "|  | " + e;
    assert a + (Sep + (b + (" |  | " + e))) == head + rest;
    assert StartsWith(rest, "|  |");
    ContainsPrepend(head, rest, "|  |");
  }

  /**
   * With all four middle slots blank the collapsing misses one empty slot: the label
   * reads `subject | cycle |  | id`.
   */
  lemma LabelWithFourBlanks(x: Standard)
    requires Proper(x.subject) && Proper(x.id)
    requires Blank(Cell(x.kind)) && Blank(Cell(x.component)) && Blank(Cell(x.theme)) && Blank(Cell(x.subtype))
    ensures SearchLabel(x) == x.subject + (Sep + (CycleField(x.cycle) + (" |  | " + x.id)))
    ensures Contains(SearchLabel(x), "|  |")
  {
    var a, b, e := x.subject, CycleField(x.cycle), x.id;
    CycleFieldProper(x.cycle);
    DropNoneProper(a); DropNoneProper(b); DropNoneProper(e);
    DropNoneBlank(Cell(x.kind)); DropNoneBlank(Cell(x.component));
    DropNoneBlank(Cell(x.theme)); DropNoneBlank(Cell(x.subtype));
    ClearSlots(LabelFields(x), [a, b, "", "", "", "", e]);
    JoinFourEmpty(a, b, e);
    CollapseFourEmptyFirst(a, b, e);
    CollapseFourEmptySecond(a, b, e);
    EmptySlotShows(a, b, e);
  }

  /**
   * Slots joined by bars: every slot occurs in the result, and slots that are non-empty
   * and bar-free leave no empty slot between two bars.
   */
  lemma JoinedSlots(shown: seq<string>)
    ensures forall i :: 0 <= i < |shown| ==> Contains(Join(shown, Sep), shown[i])
    ensures (forall i :: 0 <= i < |shown| ==> |shown[i]| > 0 && '|' !in shown[i]) ==>
      !Contains(Join(shown, Sep), "|  |")
  {
    forall i | 0 <= i < |shown| ensures Contains(Join(shown, Sep), shown[i]) {
      JoinContainsItem(shown, Sep, i);
    }
    if forall i :: 0 <= i < |shown| ==> |shown[i]| > 0 && '|' !in shown[i] {
      JoinBarsApart(shown);
      NoEmptySlot(Join(shown, Sep), "|  |");
    }
  }

  /** The slots that are not blank, joined by bars, show each such slot and no empty one. */
  lemma ShownSlots(fields: seq<string>)
    ensures forall f :: f in fields && !Blank(f) ==> Contains(Join(Keep(fields, ShownMask()), Sep), f)
    ensures (forall f :: f in fields ==> '|' !in f) ==>
      !Contains(Join(Keep(fields, ShownMask()), Sep), "|  |")
  {
    var shown := Keep(fields, ShownMask());
    JoinedSlots(shown);
    forall f | f in fields && !Blank(f) ensures Contains(Join(shown, Sep), f) {
      assert f in shown;
      var i :| 0 <= i < |shown| && shown[i] == f;
    }
    if forall f :: f in fields ==> '|' !in f {
      forall i | 0 <= i < |shown| ensures |shown[i]| > 0 && '|' !in shown[i] {
        assert shown[i] in shown;
      }
    }
  }

  // ---------------------------------------------------------------------------
  // Every pattern of blank slots
  // ---------------------------------------------------------------------------

  /**
   * The bars that stand for `k` empty slots in a row, with the space after the last
   * bar: `| ` for none, `|  | ` for one, `|  |  | ` for two, ... (`k + 1` bars).
   */
  function Gap(k: nat): (g: string)
    ensures |g| == 3 * k + 2 && g[0] == '|'
  {
    if k == 0 then "| " else "|  " + Gap(k - 1)
  }

  /**
   * Empty slots left of a run of `k` by the first pass: its bars are taken three at a
   * time from the left, each three becoming one.
   */
  function AfterFirstPass(k: nat): nat {
    if k <= 1 then k else if k == 2 then 0 else AfterFirstPass(k - 3) + 1
  }

  /** Empty slots left of a run of `k` by the second pass: bars taken two at a time. */
  function AfterSecondPass(k: nat): nat {
    if k <= 1 then 0 else AfterSecondPass(k - 2) + 1
  }

  /** In bars: the first pass turns `b` bars in a row into `b / 3 + b % 3`. */
  lemma {:induction false} FirstPassBars(k: nat)
    ensures AfterFirstPass(k) + 1 == (k + 1) / 3 + (k + 1) % 3
    decreases k
  {
    if k > 2 {
      FirstPassBars(k - 3);
    }
  }

  /** In bars: the second pass turns `b` bars in a row into `b / 2 + b % 2`. */
  lemma {:induction false} SecondPassBars(k: nat)
    ensures AfterSecondPass(k) + 1 == (k + 1) / 2 + (k + 1) % 2
    decreases k
  {
    if k > 1 {
      SecondPassBars(k - 2);
    }
  }

  /** Empty slots a run of `k` shows before any pass (0), after the first (1), after both (2). */
  function GapAfter(stage: nat, k: nat): nat {
    if stage == 0 then k
    else if stage == 1 then AfterFirstPass(k)
    else AfterSecondPass(AfterFirstPass(k))
  }

  /** The pattern of the pass that follows `stage`. */
  function PassPattern(stage: nat): string {
    if stage == 0 then "|  |  |" else "|  |"
  }

  /** A slot that shows: not blank, without bars, not starting with a space. */
  predicate Solid(f: string) {
    |f| > 0 && f[0] != ' ' && '|' !in f && !Blank(f)
  }

  /** A slot once `none` is deleted: empty, or a slot that shows. */
  predicate ClearedSlot(f: string) {
    f == "" || Solid(f)
  }

  /**
   * The text that follows a shown slot, `k` empty slots already pending: each run of
   * empty slots is written as its gap, the gap as it stands after `stage` passes.
   */
  function Gapped(stage: nat, k: nat, items: seq<string>): string
    requires |items| > 0
    decreases |items|
  {
    if items[0] == "" && |items| > 1 then Gapped(stage, k + 1, items[1..])
    else (" " + Gap(GapAfter(stage, k))) + (items[0] + (if |items| == 1 then "" else Gapped(stage, 0, items[1..])))
  }

  /** Every run of empty slots in `items` (`k` pending) is down to a single bar after both passes. */
  predicate GapsClose(k: nat, items: seq<string>)
    requires |items| > 0
    decreases |items|
  {
    if items[0] == "" && |items| > 1 then GapsClose(k + 1, items[1..])
    else GapAfter(2, k) == 0 && (|items| == 1 || GapsClose(0, items[1..]))
  }

  /** One more separator after a gap is one more empty slot. */
  lemma {:induction false} GapGrow(k: nat)
    ensures Gap(k) + Sep == Gap(k + 1)
    decreases k
  {
    if k > 0 {
      GapGrow(k - 1);
      assert Gap(k) + Sep == "|  " + (Gap(k - 1) + Sep);
    }
  }

  /** The first pass takes three bars at a time from the left of a gap. */
  lemma {:induction false} GapFirstPass(k: nat)
    ensures ReplaceAll(Gap(k), "|  |  |", "|") == Gap(AfterFirstPass(k))
    decreases k
  {
    var p := "|  |  |";
    if k <= 1 {
      ReplaceAllShort(Gap(k), p, "|");
    } else if k == 2 {
      TwoGapFirstPass();
    } else {
      GapThreeMore(k - 3);
      LeadingRunCollapses(Gap(k - 3), p);
      GapFirstPass(k - 3);
      FirstPassStep(k);
    }
  }

  /** A leading run of bars becomes one bar; the spaces after it are copied. */
  lemma LeadingRunCollapses(g: string, p: string)
    requires p == "|  |  |" || p == "|  |"
    ensures ReplaceAll(p + ("  " + g), p, "|") == "|" + ("  " + ReplaceAll(g, p, "|"))
  {
    ReplaceAllLeading("  " + g, p, "|");
    ReplaceAllNoStart("  ", g, p, "|");
  }

  /** Two empty slots are exactly one run of three bars. */
  lemma TwoGapFirstPass()
    ensures ReplaceAll(Gap(2), "|  |  |", "|") == Gap(0)
  {
    GapThreeMore(0);
    assert Gap(3) == "|  " + Gap(2);
    assert Gap(2) == "|  |  |" + " " by {
      assert Gap(2) == "|  " + ("|  " + Gap(0));
    }
    ReplaceAllLeading(" ", "|  |  |", "|");
    ReplaceAllShort(" ", "|  |  |", "|");
  }

  /** One empty slot is exactly one run of two bars. */
  lemma OneGapSecondPass()
    ensures ReplaceAll(Gap(1), "|  |", "|") == Gap(0)
  {
    assert Gap(1) == "|  |" + " " by {
      assert Gap(1) == "|  " + Gap(0);
    }
    ReplaceAllLeading(" ", "|  |", "|");
    ReplaceAllShort(" ", "|  |", "|");
  }

  /** Three more empty slots put a run of three bars in front. */
  lemma GapThreeMore(k: nat)
    ensures Gap(k + 3) == "|  |  |" + ("  " + Gap(k))
  {
    assert Gap(k + 3) == "|  " + Gap(k + 2);
    assert Gap(k + 2) == "|  " + Gap(k + 1);
    assert Gap(k + 1) == "|  " + Gap(k);
    ThreeBarsSpelled(Gap(k));
  }

  /** Two more empty slots put a run of two bars in front. */
  lemma GapTwoMore(k: nat)
    ensures Gap(k + 2) == "|  |" + ("  " + Gap(k))
  {
    assert Gap(k + 2) == "|  " + Gap(k + 1);
    assert Gap(k + 1) == "|  " + Gap(k);
    TwoBarsSpelled(Gap(k));
  }

  lemma ThreeBarsSpelled(g: string)
    ensures "|  " + ("|  " + ("|  " + g)) == "|  |  |" + ("  " + g)
  {
  }

  lemma TwoBarsSpelled(g: string)
    ensures "|  " + ("|  " + g) == "|  |" + ("  " + g)
  {
  }

  /** Three bars fewer before the first pass leave one bar fewer after it. */
  lemma FirstPassStep(k: nat)
    requires k >= 3
    ensures Gap(AfterFirstPass(k)) == "|" + ("  " + Gap(AfterFirstPass(k - 3)))
  {
    assert AfterFirstPass(k) == AfterFirstPass(k - 3) + 1;
  }

  /** Two bars fewer before the second pass leave one bar fewer after it. */
  lemma SecondPassStep(k: nat)
    requires k >= 2
    ensures Gap(AfterSecondPass(k)) == "|" + ("  " + Gap(AfterSecondPass(k - 2)))
  {
    assert AfterSecondPass(k) == AfterSecondPass(k - 2) + 1;
  }

  /** The second pass takes two bars at a time from the left of a gap. */
  lemma {:induction false} GapSecondPass(k: nat)
    ensures ReplaceAll(Gap(k), "|  |", "|") == Gap(AfterSecondPass(k))
    decreases k
  {
    var p := "|  |";
    if k == 0 {
      ReplaceAllShort(Gap(k), p, "|");
    } else if k == 1 {
      OneGapSecondPass();
    } else {
      GapTwoMore(k - 2);
      LeadingRunCollapses(Gap(k - 2), p);
      GapSecondPass(k - 2);
      SecondPassStep(k);
    }
  }

  /** The pass after `stage` turns each gap into the gap of the next stage. */
  lemma GapPass(stage: nat, k: nat)
    requires stage < 2
    ensures ReplaceAll(Gap(GapAfter(stage, k)), PassPattern(stage), "|") == Gap(GapAfter(stage + 1, k))
  {
    if stage == 0 {
      GapFirstPass(k);
    } else {
      GapSecondPass(AfterFirstPass(k));
    }
  }

  /** Before any pass, the gapped text is the separator-joined slots behind a gap. */
  lemma {:induction false} GappedIsJoin(k: nat, items: seq<string>)
    requires |items| > 0
    ensures Gapped(0, k, items) == (" " + Gap(k)) + Join(items, Sep)
    decreases |items|
  {
    var rest := items[1..];
    if |items| > 1 {
      assert items == [items[0]] + rest;
      JoinCons(items[0], rest, Sep);
      if items[0] == "" {
        GappedIsJoin(k + 1, rest);
        GapGrow(k);
        assert (" " + Gap(k)) + ("" + (Sep + Join(rest, Sep))) == (" " + (Gap(k) + Sep)) + Join(rest, Sep);
      } else {
        GappedIsJoin(0, rest);
        assert " " + Gap(0) == Sep;
      }
    }
  }

  /** A proper slot starts with neither a space nor a bar, so no bar pattern crosses into it. */
  lemma ProperHead(f: string, p: string)
    requires Solid(f) && (p == "|  |  |" || p == "|  |")
    ensures f[0] !in p && p[0] !in f
  {
  }

  /** Each pass rewrites every gap on its own and leaves the slots alone. */
  lemma {:induction false} GappedPass(stage: nat, k: nat, items: seq<string>)
    requires stage < 2 && |items| > 0 && Solid(items[|items| - 1])
    requires forall i :: 0 <= i < |items| ==> ClearedSlot(items[i])
    ensures ReplaceAll(Gapped(stage, k, items), PassPattern(stage), "|") == Gapped(stage + 1, k, items)
    decreases |items|
  {
    var p := PassPattern(stage);
    if items[0] == "" && |items| > 1 {
      GappedPass(stage, k + 1, items[1..]);
    } else {
      var f := items[0];
      var tail := if |items| == 1 then "" else Gapped(stage, 0, items[1..]);
      var gap := Gap(GapAfter(stage, k));
      ProperHead(f, p);
      ReplaceAllConcat(" " + gap, f + tail, p, "|");
      ReplaceAllHead(' ', gap, p, "|");
      GapPass(stage, k);
      ReplaceAllNoStart(f, tail, p, "|");
      if |items| > 1 {
        GappedPass(stage, 0, items[1..]);
      }
    }
  }

  /** When every gap closes, the text after both passes is the shown slots joined. */
  lemma {:induction false} GappedCollapsed(k: nat, items: seq<string>)
    requires |items| > 0 && Solid(items[|items| - 1]) && GapsClose(k, items)
    requires forall i :: 0 <= i < |items| ==> ClearedSlot(items[i])
    ensures Gapped(2, k, items) == Sep + Join(Keep(items, ShownMask()), Sep)
    decreases |items|
  {
    if |items| > 1 {
      var rest := items[1..];
      RestSlots(items);
      if items[0] == "" {
        GappedCollapsed(k + 1, rest);
        EmptyFrontCollapsed(k, items);
      } else {
        GappedCollapsed(0, rest);
        ShownFrontCollapsed(k, items);
      }
    } else {
      KeepFront(items);
      LastGapCollapsed(k, items[0]);
    }
  }

  /** The slots after the first are cleared slots ending in a slot that shows. */
  lemma RestSlots(items: seq<string>)
    requires |items| > 1 && Solid(items[|items| - 1])
    requires forall i :: 0 <= i < |items| ==> ClearedSlot(items[i])
    ensures Solid(items[1..][|items| - 2])
    ensures forall i :: 0 <= i < |items| - 1 ==> ClearedSlot(items[1..][i])
  {
    assert forall i :: 0 <= i < |items| - 1 ==> items[1..][i] == items[i + 1];
  }

  /** An empty first slot joins the pending run. */
  lemma EmptyFrontCollapsed(k: nat, items: seq<string>)
    requires |items| > 1 && items[0] == ""
    requires Gapped(2, k + 1, items[1..]) == Sep + Join(Keep(items[1..], ShownMask()), Sep)
    ensures Gapped(2, k, items) == Sep + Join(Keep(items, ShownMask()), Sep)
  {
    var kept := Keep(items[1..], ShownMask());
    assert Keep(items, ShownMask()) == kept by {
      KeepFront(items);
      assert [] + kept == kept;
    }
    GappedEmptyFront(2, k, items);
  }

  /** An empty first slot adds one to the pending run. */
  lemma GappedEmptyFront(stage: nat, k: nat, items: seq<string>)
    requires |items| > 1 && items[0] == ""
    ensures Gapped(stage, k, items) == Gapped(stage, k + 1, items[1..])
  {
  }

  /** A shown first slot ends the pending run, which must have closed. */
  lemma ShownFrontCollapsed(k: nat, items: seq<string>)
    requires |items| > 1 && Solid(items[0]) && Solid(items[|items| - 1]) && GapAfter(2, k) == 0
    requires Gapped(2, 0, items[1..]) == Sep + Join(Keep(items[1..], ShownMask()), Sep)
    ensures Gapped(2, k, items) == Sep + Join(Keep(items, ShownMask()), Sep)
  {
    var f, rest := items[0], items[1..];
    var kept := Keep(rest, ShownMask());
    assert Gapped(2, k, items) == Sep + (f + (Sep + Join(kept, Sep))) by {
      GappedShownFront(2, k, items);
      ClosedGap();
    }
    assert Keep(items, ShownMask()) == [f] + kept by {
      KeepFront(items);
    }
    assert |kept| > 0 by {
      assert rest[|rest| - 1] == items[|items| - 1];
      ShownKeepsLast(rest);
    }
    JoinCons(f, kept, Sep);
  }

  /** A shown first slot is written after the gap of the pending run. */
  lemma GappedShownFront(stage: nat, k: nat, items: seq<string>)
    requires |items| > 1 && items[0] != ""
    ensures Gapped(stage, k, items) == (" " + Gap(GapAfter(stage, k))) + (items[0] + Gapped(stage, 0, items[1..]))
  {
  }

  /** A closed gap is one separator. */
  lemma ClosedGap()
    ensures " " + Gap(0) == Sep
  {
  }

  /** The last slot behind a closed gap. */
  lemma LastGapCollapsed(k: nat, f: string)
    requires Solid(f) && GapAfter(2, k) == 0
    ensures Gapped(2, k, [f]) == Sep + Join(Keep([f], ShownMask()), Sep)
  {
    KeepFront([f]);
    ClosedGap();
    assert Gapped(2, k, [f]) == (" " + Gap(0)) + (f + "");
  }

  /** Keeping the shown slots, read from the front. */
  lemma KeepFront(items: seq<string>)
    requires |items| > 0
    ensures Keep(items, ShownMask()) == (if Blank(items[0]) then [] else [items[0]]) + Keep(items[1..], ShownMask())
  {
  }

  /** A proper last slot is kept, so something is shown. */
  lemma ShownKeepsLast(items: seq<string>)
    requires |items| > 0 && Solid(items[|items| - 1])
    ensures |Keep(items, ShownMask())| > 0
  {
    var last := items[|items| - 1];
    assert last in Keep(items, ShownMask());
  }

  /** Up to three empty slots in a row always close. */
  lemma SmallGapCloses(k: nat)
    requires k <= 3
    ensures GapAfter(2, k) == 0
  {
  }

  /** With fewer than four slots in reach of the pending run, every gap closes. */
  lemma {:induction false} ShortRunsClose(k: nat, items: seq<string>)
    requires |items| > 0 && k + |items| <= 4 && Solid(items[|items| - 1])
    requires forall i :: 0 <= i < |items| ==> ClearedSlot(items[i])
    ensures GapsClose(k, items)
    decreases |items|
  {
    if items[0] == "" && |items| > 1 {
      ShortRunsClose(k + 1, items[1..]);
    } else {
      SmallGapCloses(k);
      if |items| > 1 {
        ShortRunsClose(0, items[1..]);
      }
    }
  }

  /** Five slots, the last one shown, with a shown slot before the last: every gap closes. */
  lemma {:induction false} BrokenRunCloses(k: nat, items: seq<string>, j: nat)
    requires |items| > 0 && k + |items| <= 5 && Solid(items[|items| - 1])
    requires forall i :: 0 <= i < |items| ==> ClearedSlot(items[i])
    requires j < |items| - 1 && items[j] != ""
    ensures GapsClose(k, items)
    decreases |items|
  {
    if items[0] == "" {
      BrokenRunCloses(k + 1, items[1..], j - 1);
    } else {
      SmallGapCloses(k);
      ShortRunsClose(0, items[1..]);
    }
  }

  /**
   * The two bar passes on cleared slots, the first and the last shown: the result is
   * the first slot and the gapped rest after both passes.
   */
  lemma ClearedPasses(cl: seq<string>)
    requires |cl| >= 2 && Solid(cl[0]) && Solid(cl[|cl| - 1])
    requires forall i :: 0 <= i < |cl| ==> ClearedSlot(cl[i])
    ensures ReplaceAll(ReplaceAll(Join(cl, Sep), "|  |  |", "|"), "|  |", "|") == cl[0] + Gapped(2, 0, cl[1..])
  {
    var a, rest := cl[0], cl[1..];
    RestSlots(cl);
    JoinAsGapped(cl);
    PassAfterFirst(a, 0, rest);
    PassAfterFirst(a, 1, rest);
  }

  /** Cleared slots joined: the first slot, then the rest written gap by gap. */
  lemma JoinAsGapped(cl: seq<string>)
    requires |cl| >= 2
    ensures Join(cl, Sep) == cl[0] + Gapped(0, 0, cl[1..])
  {
    var a, rest := cl[0], cl[1..];
    assert cl == [a] + rest;
    JoinCons(a, rest, Sep);
    GappedIsJoin(0, rest);
    ClosedGap();
  }

  /** A pass leaves the first slot alone and rewrites every gap after it. */
  lemma PassAfterFirst(a: string, stage: nat, rest: seq<string>)
    requires stage < 2 && Solid(a) && |rest| > 0 && Solid(rest[|rest| - 1])
    requires forall i :: 0 <= i < |rest| ==> ClearedSlot(rest[i])
    ensures ReplaceAll(a + Gapped(stage, 0, rest), PassPattern(stage), "|") == a + Gapped(stage + 1, 0, rest)
  {
    var p := PassPattern(stage);
    ProperHead(a, p);
    ReplaceAllNoStart(a, Gapped(stage, 0, rest), p, "|");
    GappedPass(stage, 0, rest);
  }

  /**
   * When every gap closes, the two bar passes on cleared slots give the shown slots
   * joined by the separator.
   */
  lemma ClearedCollapse(cl: seq<string>)
    requires |cl| >= 2 && Solid(cl[0]) && Solid(cl[|cl| - 1]) && GapsClose(0, cl[1..])
    requires forall i :: 0 <= i < |cl| ==> ClearedSlot(cl[i])
    ensures ReplaceAll(ReplaceAll(Join(cl, Sep), "|  |  |", "|"), "|  |", "|") == Join(Keep(cl, ShownMask()), Sep)
  {
    var a, rest := cl[0], cl[1..];
    ClearedPasses(cl);
    RestSlots(cl);
    GappedCollapsed(0, rest);
    var kept := Keep(rest, ShownMask());
    assert Keep(cl, ShownMask()) == [a] + kept by {
      KeepFront(cl);
    }
    assert |kept| > 0 by {
      assert rest[|rest| - 1] == cl[|cl| - 1];
      ShownKeepsLast(rest);
    }
    JoinCons(a, kept, Sep);
  }

  /** Deleting `none` from a proper slot keeps it and it shows; from a blank slot, empties it. */
  lemma ClearedSlotOf(f: string)
    requires Proper(f) || Blank(f)
    ensures Proper(f) ==> DropNone(f) == f && Solid(f)
    ensures Blank(f) ==> DropNone(f) == ""
    ensures ClearedSlot(DropNone(f))
  {
    if Proper(f) {
      DropNoneProper(f);
      ProperNotBlank(f);
    } else {
      DropNoneBlank(f);
    }
  }

  /** Deleting `none` from proper or blank slots leaves cleared slots and the same shown slots. */
  lemma {:induction false} ClearedSlots(fields: seq<string>)
    requires forall i :: 0 <= i < |fields| ==> Proper(fields[i]) || Blank(fields[i])
    ensures forall i :: 0 <= i < |fields| ==> ClearedSlot(Apply(fields, DropNone)[i])
    ensures Keep(Apply(fields, DropNone), ShownMask()) == Keep(fields, ShownMask())
    decreases |fields|
  {
    forall i | 0 <= i < |fields| ensures ClearedSlot(Apply(fields, DropNone)[i]) {
      ClearedSlotOf(fields[i]);
    }
    if |fields| > 0 {
      var f, rest := fields[0], fields[1..];
      var cl := Apply(fields, DropNone);
      assert forall i :: 0 <= i < |rest| ==> Proper(rest[i]) || Blank(rest[i]) by {
        assert forall i :: 0 <= i < |rest| ==> rest[i] == fields[i + 1];
      }
      ClearedSlots(rest);
      assert cl[1..] == Apply(rest, DropNone);
      ClearedSlotOf(f);
      KeepFront(fields);
      KeepFront(cl);
    }
  }

  /** Seven cleared slots whose four middle ones are not all empty: every gap closes. */
  lemma MiddleGapsClose(cl: seq<string>, j: nat)
    requires |cl| == 7 && Solid(cl[1]) && Solid(cl[6])
    requires forall i :: 0 <= i < |cl| ==> ClearedSlot(cl[i])
    requires 2 <= j < 6 && cl[j] != ""
    ensures GapsClose(0, cl[1..])
  {
    var rest := cl[1..];
    assert rest[1..] == cl[2..];
    BrokenRunCloses(0, cl[2..], j - 2);
  }

  /**
   * For every pattern of blank slots (subject and id shown, each of the four middle
   * slots proper or blank), the label comes out as intended exactly when the four
   * middle slots are not all blank: that one pattern is the only one that fails.
   */
  lemma LabelAsIntendedIff(x: Standard)
    requires Proper(x.subject) && Proper(x.id)
    requires Proper(Cell(x.kind)) || Blank(Cell(x.kind))
    requires Proper(Cell(x.component)) || Blank(Cell(x.component))
    requires Proper(Cell(x.theme)) || Blank(Cell(x.theme))
    requires Proper(Cell(x.subtype)) || Blank(Cell(x.subtype))
    ensures SearchLabel(x) == IntendedSearchLabel(x) <==>
      !(Blank(Cell(x.kind)) && Blank(Cell(x.component)) && Blank(Cell(x.theme)) && Blank(Cell(x.subtype)))
  {
    if Blank(Cell(x.kind)) && Blank(Cell(x.component)) && Blank(Cell(x.theme)) && Blank(Cell(x.subtype)) {
      LabelWithFourBlanks(x);
      FourBlanksBarFree(x);
    } else {
      LabelWithSomeMiddle(x);
    }
  }

  /** With all four middle slots blank every slot is still bar-free. */
  lemma FourBlanksBarFree(x: Standard)
    requires Proper(x.subject) && Proper(x.id)
    requires Blank(Cell(x.kind)) && Blank(Cell(x.component)) && Blank(Cell(x.theme)) && Blank(Cell(x.subtype))
    ensures forall f :: f in LabelFields(x) ==> '|' !in f
  {
    CycleFieldProper(x.cycle);
    forall f | f in LabelFields(x) ensures '|' !in f {
      BarFreeSlot(f);
    }
  }

  /** The slots of a hit are proper or blank when its subject, id and middle slots are. */
  lemma FieldsProperOrBlank(x: Standard)
    requires Proper(x.subject) && Proper(x.id)
    requires Proper(Cell(x.kind)) || Blank(Cell(x.kind))
    requires Proper(Cell(x.component)) || Blank(Cell(x.component))
    requires Proper(Cell(x.theme)) || Blank(Cell(x.theme))
    requires Proper(Cell(x.subtype)) || Blank(Cell(x.subtype))
    ensures |LabelFields(x)| == 7
    ensures forall i :: 0 <= i < 7 ==> Proper(LabelFields(x)[i]) || Blank(LabelFields(x)[i])
    ensures Proper(LabelFields(x)[1]) && Proper(LabelFields(x)[6])
  {
    CycleFieldProper(x.cycle);
  }

  /** With one of the four middle slots shown, the label is the shown slots joined. */
  lemma LabelWithSomeMiddle(x: Standard)
    requires Proper(x.subject) && Proper(x.id)
    requires Proper(Cell(x.kind)) || Blank(Cell(x.kind))
    requires Proper(Cell(x.component)) || Blank(Cell(x.component))
    requires Proper(Cell(x.theme)) || Blank(Cell(x.theme))
    requires Proper(Cell(x.subtype)) || Blank(Cell(x.subtype))
    requires !(Blank(Cell(x.kind)) && Blank(Cell(x.component)) && Blank(Cell(x.theme)) && Blank(Cell(x.subtype)))
    ensures SearchLabel(x) == IntendedSearchLabel(x)
  {
    var fields := LabelFields(x);
    FieldsProperOrBlank(x);
    var j := ShownMiddle(x);
    SlotsToIntended(fields, j);
  }

  /** A middle slot of the hit that is not blank. */
  lemma ShownMiddle(x: Standard) returns (j: nat)
    requires !(Blank(Cell(x.kind)) && Blank(Cell(x.component)) && Blank(Cell(x.theme)) && Blank(Cell(x.subtype)))
    ensures 2 <= j < 6 && !Blank(LabelFields(x)[j])
  {
    if !Blank(Cell(x.kind)) {
      j := 2;
    } else if !Blank(Cell(x.component)) {
      j := 3;
    } else if !Blank(Cell(x.theme)) {
      j := 4;
    } else {
      j := 5;
    }
  }

  /**
   * Seven proper or blank slots, the first two and the last proper, one of the middle
   * four not blank: the three replacements give the shown slots joined.
   */
  lemma SlotsToIntended(fields: seq<string>, j: nat)
    requires |fields| == 7 && Proper(fields[0]) && Proper(fields[1]) && Proper(fields[6])
    requires forall i :: 0 <= i < 7 ==> Proper(fields[i]) || Blank(fields[i])
    requires 2 <= j < 6 && !Blank(fields[j])
    ensures Cleanup(Join(fields, Sep)) == Join(Keep(fields, ShownMask()), Sep)
  {
    var cl := Apply(fields, DropNone);
    DropNoneInJoin(fields);
    ClearedSlots(fields);
    ClearedSlotOf(fields[0]);
    ClearedSlotOf(fields[1]);
    ClearedSlotOf(fields[6]);
    ClearedSlotOf(fields[j]);
    MiddleGapsClose(cl, j);
    ClearedCollapse(cl);
  }

  /** A proper or blank slot holds no bar. */
  lemma BarFreeSlot(f: string)
    requires Proper(f) || Blank(f)
    ensures '|' !in f
  {
  }

  /** The hit from the documentation of `show_search_results`. */
  function DocumentedHit(): Standard {
    Standard("vv3-o-033", "Výtvarná výchova", 3, Some("Obsahový štandard"), Some("Osobnosť"),
      Some("none"), Some("none"), None, None, {})
  }

  /** A non-empty slot without a bar, a leading space or the letter `e` is proper. */
  lemma ProperWithoutE(f: string)
    requires |f| > 0 && f[0] != ' ' && '|' !in f && 'e' !in f
    ensures Proper(f)
  {
    MissingCharNotContained(f, "none", 'e');
  }

  /** The slots of the documented hit hold no bar and no `e`. */
  lemma DocumentedSlotsPlain()
    ensures '|' !in "Výtvarná výchova" && 'e' !in "Výtvarná výchova"
    ensures '|' !in "Obsahový štandard" && 'e' !in "Obsahový štandard"
    ensures '|' !in "Osobnosť" && 'e' !in "Osobnosť"
    ensures '|' !in "vv3-o-033" && 'e' !in "vv3-o-033"
    ensures CycleField(3) == "3. cyklus"
  {
    SubjectPlain();
    KindPlain();
  }

  lemma SubjectPlain()
    ensures '|' !in "Výtvarná výchova" && 'e' !in "Výtvarná výchova"
  {
  }

  lemma KindPlain()
    ensures '|' !in "Obsahový štandard" && 'e' !in "Obsahový štandard"
  {
  }

  /** Its label is the one given there. */
  lemma DocumentedLabel()
    ensures SearchLabel(DocumentedHit())
      == Join(["Výtvarná výchova", "3. cyklus", "Obsahový štandard", "Osobnosť", "vv3-o-033"], Sep)
  {
    DocumentedSlotsPlain();
    ProperWithoutE("Výtvarná výchova");
    ProperWithoutE("Obsahový štandard");
    ProperWithoutE("Osobnosť");
    ProperWithoutE("vv3-o-033");
    LabelWithBlankThemeAndSubtype(DocumentedHit());
  }

  /** The same hit with kind and component blank as well keeps an empty slot. */
  lemma DocumentedHitFourBlanks()
    ensures var x := DocumentedHit().(kind := Some("none"), component := Some("none"));
      SearchLabel(x) == "Výtvarná výchova" + (Sep + ("3. cyklus" + (" |  | " + "vv3-o-033")))
      && Contains(SearchLabel(x), "|  |")
  {
    DocumentedSlotsPlain();
    ProperWithoutE("Výtvarná výchova");
    ProperWithoutE("vv3-o-033");
    LabelWithFourBlanks(DocumentedHit().(kind := Some("none"), component := Some("none")));
  }
}

=== FILE: selection.dfy ===
/**
 * The row selections the page applies to the standards table: subject and cycle,
 * foreign-language variant, cross-cutting literacy, science discipline, and the rows
 * and columns of the spreadsheet export. Each is a pandas boolean mask, so each keeps
 * the chosen rows in table order and never invents or repeats one.
 */
module Selection {
  import opened Wrappers
  import opened Text
  import opened Seqs
  import opened Catalogue

  // ---------------------------------------------------------------------------
  // Subject, cycle and language variant (eskvp.py:304-310)
  // ---------------------------------------------------------------------------

  /** Subject code followed by the cycle number, e.g. "mt3". */
  function SubjectCycleKey(subject: string, cycle: nat): string
    requires subject in SubjectCodes
  {
    SubjectCodes[subject] + DecimalString(cycle)
  }

  function IdContainsMask(key: string): Standard -> bool {
    (x: Standard) => Contains(x.id, key)
  }

  /** The rows whose id contains the subject/cycle key anywhere. */
  function SelectSubjectCycle(rows: seq<Standard>, subject: string, cycle: nat): (r: seq<Standard>)
    requires subject in SubjectCodes
    ensures forall x :: x in r <==> x in rows && Contains(x.id, SubjectCycleKey(subject, cycle))
    ensures multiset(r) <= multiset(rows)
  {
    Keep(rows, IdContainsMask(SubjectCycleKey(subject, cycle)))
  }

  /** The language variants other than the chosen one (`jazyky` without `jazyk`). */
  function OtherLanguages(language: string): (r: seq<string>)
    requires language in ForeignLanguages
    ensures forall l :: l in r <==> l in ForeignLanguages && l != language
  {
    Keep(ForeignLanguages, l => l != language)
  }

  /** A row applies to the chosen language unless it is tagged with another one. */
  predicate AppliesToLanguage(x: Standard, language: string) {
    !(x.subtype.Some? && x.subtype.value in ForeignLanguages && x.subtype.value != language)
  }

  function LanguageMask(language: string): Standard -> bool
    requires language in ForeignLanguages
  {
    (x: Standard) => !(x.subtype.Some? && x.subtype.value in OtherLanguages(language))
  }

  /** Drops the rows tagged with a language other than `language`; untagged rows stay. */
  function SelectLanguage(rows: seq<Standard>, language: string): (r: seq<Standard>)
    requires language in ForeignLanguages
    ensures forall x :: x in r <==> x in rows && AppliesToLanguage(x, language)
    ensures multiset(r) <= multiset(rows)
  {
    Keep(rows, LanguageMask(language))
  }

  /**
   * The rows shown for a subject and cycle: the id filter, and for the foreign-language
   * subject the language filter after it. `language` matters only for that subject.
   */
  function SelectSubjectRows(rows: seq<Standard>, subject: string, cycle: nat, language: string): (r: seq<Standard>)
    requires subject in SubjectCodes
    requires subject == ForeignLanguage ==> language in ForeignLanguages
    ensures forall x :: x in r <==>
      && x in rows
      && Contains(x.id, SubjectCycleKey(subject, cycle))
      && (subject == ForeignLanguage ==> AppliesToLanguage(x, language))
    ensures multiset(r) <= multiset(rows)
  {
    var bySubject := SelectSubjectCycle(rows, subject, cycle);
    if subject == ForeignLanguage then SelectLanguage(bySubject, language) else bySubject
  }

  /** The selection keeps table order: it commutes with splitting the table in two. */
  lemma SelectSubjectRowsConcat(a: seq<Standard>, b: seq<Standard>, subject: string, cycle: nat, language: string)
    requires subject in SubjectCodes
    requires subject == ForeignLanguage ==> language in ForeignLanguages
    ensures SelectSubjectRows(a + b, subject, cycle, language)
         == SelectSubjectRows(a, subject, cycle, language) + SelectSubjectRows(b, subject, cycle, language)
  {
    var key := SubjectCycleKey(subject, cycle);
    KeepConcat(a, b, IdContainsMask(key));
    if subject == ForeignLanguage {
      KeepConcat(SelectSubjectCycle(a, subject, cycle), SelectSubjectCycle(b, subject, cycle), LanguageMask(language));
    }
  }

  /**
   * On a table of well-formed ids the unanchored lookup behaves like a prefix test:
   * a subject and cycle select exactly the ids that start with their code and digit.
   */
  lemma SelectSubjectCycleIsPrefix(rows: seq<Standard>, subject: string, cycle: nat)
    requires subject in SubjectCodes && cycle < 10
    requires forall x :: x in rows ==> WellFormedId(x.id)
    ensures forall x :: x in SelectSubjectCycle(rows, subject, cycle) <==>
      x in rows && StartsWith(x.id, SubjectCycleKey(subject, cycle))
  {
    SubjectCodesAreLetterPairs();
    var code := SubjectCodes[subject];
    var digit := DecimalString(cycle)[0];
    assert SubjectCycleKey(subject, cycle) == code + [digit];
    forall x | x in rows
      ensures Contains(x.id, code + [digit]) <==> StartsWith(x.id, code + [digit])
    {
      SubjectKeyMatchesOnlyOwnIds(x.id, code, digit);
    }
  }

  // ---------------------------------------------------------------------------
  // Cross-cutting literacy (eskvp.py:406-413)
  // ---------------------------------------------------------------------------

  /** The tags the literacy filter offers: the keys of the legend. */
  function LiteracyTags(): set<string> {
    {ReadingVisual, Digital, Financial, Civic, Environmental, SocialEmotional}
  }

  /** The literacy columns a tag stands for: two tags are aliases for several columns. */
  function TagColumns(tag: string): set<string> {
    if tag == Civic then {Civic, Media, Intercultural}
    else if tag == ReadingVisual then {Reading, Visual}
    else {tag}
  }

  /** Every literacy tag names existing columns, and together they cover all nine. */
  lemma TagColumnsCoverLiteracies()
    ensures forall t :: t in LiteracyTags() ==> TagColumns(t) <= LiteracyColumns()
    ensures forall c :: c in LiteracyColumns() ==> exists t :: t in LiteracyTags() && c in TagColumns(t)
  {
    var tags := LiteracyTags();
    forall c | c in LiteracyColumns()
      ensures exists t :: t in tags && c in TagColumns(t)
    {
      if c == Visual || c == Reading {
        assert c in TagColumns(ReadingVisual);
      } else if c == Civic || c == Media || c == Intercultural {
        assert c in TagColumns(Civic);
      } else {
        assert c in TagColumns(c);
      }
    }
  }

  /** The row carries a mark in one of the columns the tag stands for. */
  predicate DevelopsTag(x: Standard, tag: string) {
    if tag == Civic then Civic in x.literacies || Media in x.literacies || Intercultural in x.literacies
    else if tag == ReadingVisual then Reading in x.literacies || Visual in x.literacies
    else tag in x.literacies
  }

  function LiteracyMask(tag: string): Standard -> bool {
    (x: Standard) => DevelopsTag(x, tag)
  }

  function ContentMask(): Standard -> bool {
    (x: Standard) => IsContent(x.id)
  }

  /**
   * The content standards that develop the literacy `tag`: the civic tag accepts a civic,
   * media or intercultural mark, the reading-visual tag a reading or visual mark, and
   * any other tag its own column.
   */
  function SelectLiteracy(rows: seq<Standard>, tag: string): (r: seq<Standard>)
    requires tag in LiteracyTags()
    ensures forall x :: x in r <==>
      && x in rows
      && IsContent(x.id)
      && (tag == Civic ==> Civic in x.literacies || Media in x.literacies || Intercultural in x.literacies)
      && (tag == ReadingVisual ==> Reading in x.literacies || Visual in x.literacies)
      && (tag != Civic && tag != ReadingVisual ==> tag in x.literacies)
    ensures multiset(r) <= multiset(rows)
  {
    Keep(Keep(rows, LiteracyMask(tag)), ContentMask())
  }

  /** The literacy selection keeps table order. */
  lemma SelectLiteracyConcat(a: seq<Standard>, b: seq<Standard>, tag: string)
    requires tag in LiteracyTags()
    ensures SelectLiteracy(a + b, tag) == SelectLiteracy(a, tag) + SelectLiteracy(b, tag)
  {
    KeepConcat(a, b, LiteracyMask(tag));
    KeepConcat(Keep(a, LiteracyMask(tag)), Keep(b, LiteracyMask(tag)), ContentMask());
  }

  // ---------------------------------------------------------------------------
  // Science disciplines of "Človek a príroda", cycle 3 (eskvp.py:157-178)
  // ---------------------------------------------------------------------------

  const Chemistry: string := "Chémia"
  const Physics: string := "Fyzika"
  const Biology: string := "Biológia"

  /**
   * The pattern a discipline is searched with: its superscript marker when chosen,
   * otherwise a placeholder meant to match nothing.
   */
  function MarkerPattern(options: set<string>, discipline: string, marker: string): string {
    if discipline in options then marker else "xxxx"
  }

  /** The definition carries the marker of a chosen discipline (or the placeholder). */
  predicate MentionsChosenDiscipline(d: string, options: set<string>) {
    || Contains(d, MarkerPattern(options, Chemistry, "<sup>CH</sup>"))
    || Contains(d, MarkerPattern(options, Physics, "<sup>F</sup>"))
    || Contains(d, MarkerPattern(options, Biology, "<sup>B</sup>"))
  }

  /** A row stays when it is a performance standard or mentions a chosen discipline. */
  predicate DisciplineMatch(x: Standard, options: set<string>) {
    || IsPerformance(x.id)
    || (x.definition.Some? && MentionsChosenDiscipline(x.definition.value, options))
  }

  function DisciplineMask(options: set<string>): Standard -> bool {
    (x: Standard) => DisciplineMatch(x, options)
  }

  /** Adjacent markers `<sup>F</sup>, <sup>CH</sup>` are merged into `<sup>F, CH</sup>`. */
  function CollapseMarkers(x: Standard): (y: Standard)
    ensures y.(definition := x.definition) == x
    ensures x.definition.None? <==> y.definition.None?
  {
    match x.definition
    case None => x
    case Some(d) => x.(definition := Some(ReplaceAll(d, "</sup>, <sup>", ", ")))
  }

  /** The rows for the chosen disciplines, in table order, with their markers merged. */
  function SelectDisciplines(rows: seq<Standard>, options: set<string>): (r: seq<Standard>)
    ensures forall x :: x in rows && DisciplineMatch(x, options) ==> CollapseMarkers(x) in r
    ensures forall y :: y in r ==> exists x :: x in rows && DisciplineMatch(x, options) && y == CollapseMarkers(x)
    ensures |r| <= |rows|
  {
    Apply(Keep(rows, DisciplineMask(options)), CollapseMarkers)
  }

  /** The discipline selection keeps table order. */
  lemma SelectDisciplinesConcat(a: seq<Standard>, b: seq<Standard>, options: set<string>)
    ensures SelectDisciplines(a + b, options) == SelectDisciplines(a, options) + SelectDisciplines(b, options)
  {
    KeepConcat(a, b, DisciplineMask(options));
    ApplyConcat(Keep(a, DisciplineMask(options)), Keep(b, DisciplineMask(options)), CollapseMarkers);
  }

  /** Two adjacent discipline markers become one superscript listing both. */
  lemma CollapseTwoMarkers()
    ensures ReplaceAll("<sup>" + ("F" + ("</sup>, <sup>" + "CH</sup>")), "</sup>, <sup>", ", ")
         == "<sup>" + ("F" + (", " + "CH</sup>"))
  {
    var p := "</sup>, <sup>";
    ReplaceAllConcat("<sup>", "F" + (p + "CH</sup>"), p, ", ");
    MarkersUntouched();
    ReplaceAllHead('F', p + "CH</sup>", p, ", ");
    ReplaceAllLeading("CH</sup>", p, ", ");
  }

  /** An opening or a closing marker alone holds no seam between two markers. */
  lemma MarkersUntouched()
    ensures ReplaceAll("<sup>", "</sup>, <sup>", ", ") == "<sup>"
    ensures ReplaceAll("CH</sup>", "</sup>, <sup>", ", ") == "CH</sup>"
  {
    ReplaceAllShort("<sup>", "</sup>, <sup>", ", ");
    ReplaceAllShort("CH</sup>", "</sup>, <sup>", ", ");
  }

  // ---------------------------------------------------------------------------
  // Spreadsheet export (eskvp.py:125-136)
  // ---------------------------------------------------------------------------

  const Intro: string := "Úvod"

  /** The exported columns, in order; `typ_standardu` and `definicia_clean` are renamed. */
  const ExportColumns: seq<string> := ["id", "typ", "komponent", "tema", "druh", "definicia standardu"]

  /** One exported row, its fields in the order of `ExportColumns`. */
  datatype ExportRow = ExportRow(
    id: string,
    kind: Option<string>,
    component: Option<string>,
    theme: Option<string>,
    druh: Option<string>,
    cleanDefinition: Option<string>)
  {
    /** The cells of the row, one per exported column. */
    function Cells(): (c: seq<Option<string>>)
      ensures |c| == |ExportColumns|
    {
      [Some(id), kind, component, theme, druh, cleanDefinition]
    }
  }

  function ToExportRow(x: Standard): ExportRow {
    ExportRow(x.id, x.kind, x.component, x.theme, x.subtype, x.cleanDefinition)
  }

  /** Introductions and main goals are not exported; a missing cell is never "Úvod". */
  predicate IsExported(x: Standard) {
    x.subtype != Some(Intro) && x.theme != Some(Intro) && !IsMainGoal(x.id)
  }

  function ExportMask(): Standard -> bool {
    (x: Standard) => IsExported(x)
  }

  /** The rows and columns written to the spreadsheet. */
  function ExportRows(rows: seq<Standard>): (r: seq<ExportRow>)
    ensures forall x :: x in rows && IsExported(x) ==> ToExportRow(x) in r
    ensures forall y :: y in r ==> exists x :: x in rows && IsExported(x) && y == ToExportRow(x)
  {
    Apply(Keep(rows, ExportMask()), ToExportRow)
  }

  function NotExportedMask(): Standard -> bool {
    (x: Standard) => !IsExported(x)
  }

  /** The export is the table minus its introduction and main-goal rows, counted exactly. */
  lemma ExportRowCount(rows: seq<Standard>)
    ensures |ExportRows(rows)| == |rows| - |Keep(rows, NotExportedMask())|
  {
    KeepSplit(rows, ExportMask(), NotExportedMask());
  }

  /** The export keeps table order. */
  lemma ExportRowsConcat(a: seq<Standard>, b: seq<Standard>)
    ensures ExportRows(a + b) == ExportRows(a) + ExportRows(b)
  {
    KeepConcat(a, b, ExportMask());
    ApplyConcat(Keep(a, ExportMask()), Keep(b, ExportMask()), ToExportRow);
  }
}

=== FILE: seqs.dfy ===
/**
 * The two sequence operations pandas performs on the table: selecting rows with a
 * boolean mask (order kept) and `unique()` (distinct values in first-seen order).
 */
module Seqs {

  /** The elements of `s` on which the mask `f` holds, in their original order. */
  function Keep<T(!new)>(s: seq<T>, f: T -> bool): (r: seq<T>)
    ensures forall x :: x in r <==> x in s && f(x)
    ensures multiset(r) <= multiset(s) && |r| <= |s|
    decreases |s|
  {
    if |s| == 0 then []
    else
      assert s == [s[0]] + s[1..];
      (if f(s[0]) then [s[0]] else []) + Keep(s[1..], f)
  }

  /** Selection commutes with concatenation: kept rows never change their relative order. */
  lemma {:induction false} KeepConcat<T(!new)>(a: seq<T>, b: seq<T>, f: T -> bool)
    ensures Keep(a + b, f) == Keep(a, f) + Keep(b, f)
    decreases |a|
  {
    if a == [] {
      assert a + b == b;
    } else {
      assert (a + b)[1..] == a[1..] + b;
      KeepConcat(a[1..], b, f);
    }
  }

  /** A mask that holds everywhere keeps the whole sequence. */
  lemma {:induction false} KeepAll<T(!new)>(s: seq<T>, f: T -> bool)
    requires forall x :: x in s ==> f(x)
    ensures Keep(s, f) == s
    decreases |s|
  {
    if |s| > 0 {
      KeepAll(s[1..], f);
    }
  }

  /** A mask that holds nowhere keeps nothing. */
  lemma {:induction false} KeepNone<T(!new)>(s: seq<T>, f: T -> bool)
    requires forall x :: x in s ==> !f(x)
    ensures Keep(s, f) == []
    decreases |s|
  {
    if |s| > 0 {
      KeepNone(s[1..], f);
    }
  }

  /** A mask and its complement split a sequence: every element is kept by exactly one. */
  lemma {:induction false} KeepSplit<T(!new)>(s: seq<T>, f: T -> bool, g: T -> bool)
    requires forall x :: g(x) == !f(x)
    ensures |Keep(s, f)| + |Keep(s, g)| == |s|
    decreases |s|
  {
    if |s| > 0 {
      KeepSplit(s[1..], f, g);
    }
  }

  /** `g` applied to every element, in order (a column rewritten row by row). */
  function Apply<T(!new), U(!new)>(s: seq<T>, g: T -> U): (r: seq<U>)
    ensures |r| == |s| && forall i :: 0 <= i < |s| ==> r[i] == g(s[i])
    ensures forall x :: x in s ==> g(x) in r
    ensures forall y :: y in r ==> exists x :: x in s && y == g(x)
    decreases |s|
  {
    if |s| == 0 then []
    else
      var r := [g(s[0])] + Apply(s[1..], g);
      assert forall x :: x in s ==> x == s[0] || x in s[1..];
      r
  }

  /** Rewriting a prefix is the prefix of the rewriting. */
  lemma ApplyPrefix<T(!new), U(!new)>(s: seq<T>, g: T -> U, n: nat)
    requires n <= |s|
    ensures Apply(s, g)[..n] == Apply(s[..n], g)
  {
    var a, b := Apply(s, g)[..n], Apply(s[..n], g);
    forall i | 0 <= i < n ensures a[i] == b[i] {
      assert s[..n][i] == s[i];
    }
  }

  /** Rewriting one more element appends its image. */
  lemma ApplyStep<T(!new), U(!new)>(s: seq<T>, g: T -> U, i: nat)
    requires i < |s|
    ensures Apply(s[..i + 1], g) == Apply(s[..i], g) + [g(s[i])]
    ensures Apply(s[..i + 1], g)[..i] == Apply(s[..i], g)
  {
    assert s[..i + 1] == s[..i] + [s[i]];
    ApplyConcat(s[..i], [s[i]], g);
  }

  /** Rewriting commutes with concatenation. */
  lemma ApplyConcat<T(!new), U(!new)>(a: seq<T>, b: seq<T>, g: T -> U)
    ensures Apply(a + b, g) == Apply(a, g) + Apply(b, g)
  {
  }

  /** Position of the first occurrence of `x` in `s`. */
  function IndexOf<T(==)>(s: seq<T>, x: T): (i: nat)
    requires x in s
    ensures i < |s| && s[i] == x && x !in s[..i]
    decreases |s|
  {
    if s[0] == x then 0 else 1 + IndexOf(s[1..], x)
  }

  /** The distinct elements of `s` in the order they are first seen (pandas `unique()`). */
  function Dedup<T(==,!new)>(s: seq<T>): (r: seq<T>)
    ensures forall x :: x in r <==> x in s
    ensures forall i, j :: 0 <= i < j < |r| ==> r[i] != r[j]
    decreases |s|
  {
    if |s| == 0 then []
    else
      var d := Dedup(s[..|s| - 1]);
      if s[|s| - 1] in d then d else d + [s[|s| - 1]]
  }

  /** A first occurrence inside a prefix is the first occurrence in the whole sequence. */
  lemma IndexOfPrefix<T>(s: seq<T>, n: nat, x: T)
    requires n <= |s| && x in s[..n]
    ensures IndexOf(s[..n], x) == IndexOf(s, x)
  {
    var i := IndexOf(s[..n], x);
    var k := IndexOf(s, x);
    assert s[..n][..i] == s[..i];
  }

  /** `Dedup` lists the distinct values by increasing position of their first occurrence. */
  lemma {:induction false} DedupFirstSeen<T(!new)>(s: seq<T>, i: nat, j: nat)
    requires i < j < |Dedup(s)|
    ensures IndexOf(s, Dedup(s)[i]) < IndexOf(s, Dedup(s)[j])
    decreases |s|
  {
    var init := s[..|s| - 1];
    var d := Dedup(init);
    var last := s[|s| - 1];
    assert init == s[..|s| - 1];
    if j < |d| {
      DedupFirstSeen(init, i, j);
      IndexOfPrefix(s, |s| - 1, d[i]);
      IndexOfPrefix(s, |s| - 1, d[j]);
    } else {
      // Dedup(s)[j] is the last element, seen for the first time at the end.
      assert Dedup(s)[j] == last && last !in init;
      IndexOfPrefix(s, |s| - 1, d[i]);
      assert IndexOf(s, last) == |s| - 1;
    }
  }
}

=== FILE: text.dfy ===
/**
 * Strings as sequences of characters, with the three Python string operations the
 * page relies on: substring containment (`p in s`, `str.contains`), left-to-right
 * non-overlapping replacement (`str.replace`) and joining with a separator.
 */
module Text {

  predicate StartsWith(s: string, p: string) {
    |p| <= |s| && s[..|p|] == p
  }

  predicate EndsWith(s: string, p: string) {
    |p| <= |s| && s[|s| - |p|..] == p
  }

  /** `p` occurs in `s` as a contiguous block; the empty string occurs everywhere. */
  predicate Contains(s: string, p: string)
    decreases |s|
  {
    StartsWith(s, p) || (|s| > 0 && Contains(s[1..], p))
  }

  /** An occurrence in `s` is an occurrence in anything that extends `s` on the right. */
  lemma {:induction false} ContainsAppend(s: string, t: string, p: string)
    requires Contains(s, p)
    ensures Contains(s + t, p)
    decreases |s|
  {
    if StartsWith(s, p) {
      assert (s + t)[..|p|] == s[..|p|];
    } else {
      assert (s + t)[1..] == s[1..] + t;
      ContainsAppend(s[1..], t, p);
    }
  }

  /** An occurrence in `t` is an occurrence in anything that extends `t` on the left. */
  lemma {:induction false} ContainsPrepend(s: string, t: string, p: string)
    requires Contains(t, p)
    ensures Contains(s + t, p)
    decreases |s|
  {
    if s == [] {
      assert s + t == t;
    } else {
      assert (s + t)[1..] == s[1..] + t;
      ContainsPrepend(s[1..], t, p);
    }
  }

  /** A string lacking one of the characters of `p` cannot contain `p`. */
  lemma {:induction false} MissingCharNotContained(s: string, p: string, c: char)
    requires c in p && c !in s
    ensures !Contains(s, p)
    decreases |s|
  {
    if |s| > 0 {
      MissingCharNotContained(s[1..], p, c);
    }
  }

  /**
   * Python's `s.replace(p, r)` for a non-empty `p`: scan left to right and replace
   * every occurrence that does not overlap an earlier replaced one.
   */
  function ReplaceAll(s: string, p: string, r: string): string
    requires |p| > 0
    decreases |s|
  {
    if |s| == 0 then []
    else if StartsWith(s, p) then r + ReplaceAll(s[|p|..], p, r)
    else [s[0]] + ReplaceAll(s[1..], p, r)
  }

  /** A replacement no longer than the pattern never makes the text longer. */
  lemma {:induction false} ReplaceAllShrinks(s: string, p: string, r: string)
    requires 0 < |p| && |r| <= |p|
    ensures |ReplaceAll(s, p, r)| <= |s|
    decreases |s|
  {
    if |s| > 0 {
      if StartsWith(s, p) {
        ReplaceAllShrinks(s[|p|..], p, r);
      } else {
        ReplaceAllShrinks(s[1..], p, r);
      }
    }
  }

  /** Replacing a pattern that does not occur changes nothing. */
  lemma {:induction false} ReplaceAllAbsent(s: string, p: string, r: string)
    requires |p| > 0 && !Contains(s, p)
    ensures ReplaceAll(s, p, r) == s
    decreases |s|
  {
    if |s| > 0 {
      ReplaceAllAbsent(s[1..], p, r);
    }
  }

  /**
   * Replacement distributes over a seam that no occurrence can cross: when the right
   * part starts with a character foreign to `p`, the two parts are rewritten apart.
   */
  lemma {:induction false} ReplaceAllConcat(x: string, z: string, p: string, r: string)
    requires |p| > 0
    requires z == [] || z[0] !in p
    ensures ReplaceAll(x + z, p, r) == ReplaceAll(x, p, r) + ReplaceAll(z, p, r)
    decreases |x|
  {
    if x == [] {
      assert x + z == z;
    } else if StartsWith(x + z, p) {
      if |x| < |p| {
        SeamCharacter(x, z, p);
        assert false;
      }
      assert x[..|p|] == (x + z)[..|p|];
      assert (x + z)[|p|..] == x[|p|..] + z;
      ReplaceAllConcat(x[|p|..], z, p, r);
    } else {
      assert (x + z)[1..] == x[1..] + z;
      ReplaceAllConcat(x[1..], z, p, r);
    }
  }

  /** An occurrence at the start of `x + z` that is longer than `x` reads on into `z`. */
  lemma SeamCharacter(x: string, z: string, p: string)
    requires StartsWith(x + z, p) && |x| < |p|
    ensures |z| > 0 && z[0] == p[|x|]
  {
    assert p[|x|] == (x + z)[|x|];
  }

  /** A leading occurrence is rewritten first. */
  lemma ReplaceAllLeading(z: string, p: string, r: string)
    requires |p| > 0
    ensures ReplaceAll(p + z, p, r) == r + ReplaceAll(z, p, r)
  {
    assert (p + z)[..|p|] == p;
    assert (p + z)[|p|..] == z;
  }

  /** A first character that cannot start `p` is copied as it is. */
  lemma ReplaceAllHead(c: char, z: string, p: string, r: string)
    requires |p| > 0 && c != p[0]
    ensures ReplaceAll([c] + z, p, r) == [c] + ReplaceAll(z, p, r)
  {
    assert ([c] + z)[1..] == z;
  }

  /** A first character that does not start an occurrence is copied as it is. */
  lemma ReplaceAllSkip(c: char, z: string, p: string, r: string)
    requires |p| > 0 && !StartsWith([c] + z, p)
    ensures ReplaceAll([c] + z, p, r) == [c] + ReplaceAll(z, p, r)
  {
    assert ([c] + z)[1..] == z;
  }

  /** A stretch without the first character of `p` is copied as it is. */
  lemma {:induction false} ReplaceAllNoStart(w: string, z: string, p: string, r: string)
    requires |p| > 0 && p[0] !in w
    ensures ReplaceAll(w + z, p, r) == w + ReplaceAll(z, p, r)
    decreases |w|
  {
    if w != [] {
      assert w + z == [w[0]] + (w[1..] + z);
      ReplaceAllHead(w[0], w[1..] + z, p, r);
      ReplaceAllNoStart(w[1..], z, p, r);
      assert w == [w[0]] + w[1..];
    } else {
      assert w + z == z;
    }
  }

  /** A text shorter than the pattern cannot hold it. */
  lemma {:induction false} ReplaceAllShort(s: string, p: string, r: string)
    requires 0 < |p| && |s| < |p|
    ensures ReplaceAll(s, p, r) == s
    decreases |s|
  {
    if |s| > 0 {
      ReplaceAllShort(s[1..], p, r);
    }
  }

  /** The items separated by `sep` (Python `sep.join(items)`). */
  function Join(items: seq<string>, sep: string): string
    decreases |items|
  {
    if |items| == 0 then ""
    else if |items| == 1 then items[0]
    else Join(items[..|items| - 1], sep) + sep + items[|items| - 1]
  }

  /** The joined text is the join of all but the last item, the separator and the last item. */
  lemma JoinLast(items: seq<string>, sep: string)
    requires |items| > 1
    ensures Join(items, sep) == Join(items[..|items| - 1], sep) + (sep + items[|items| - 1])
  {
  }

  lemma ConcatAssoc(a: string, b: string, c: string)
    ensures a + (b + c) == (a + b) + c
  {
  }

  /** Every item followed by `suffix`, as a loop `text += item + suffix` builds it. */
  function Suffixed(items: seq<string>, suffix: string): string
    decreases |items|
  {
    if |items| == 0 then ""
    else Suffixed(items[..|items| - 1], suffix) + items[|items| - 1] + suffix
  }

  /** Joining read from the front: the first item, then the separator and the rest. */
  lemma {:induction false} JoinCons(x: string, rest: seq<string>, sep: string)
    requires |rest| > 0
    ensures Join([x] + rest, sep) == x + (sep + Join(rest, sep))
    decreases |rest|
  {
    var items := [x] + rest;
    var n := |items|;
    assert items[n - 1] == rest[|rest| - 1];
    if |rest| == 1 {
      assert items[..n - 1] == [x];
    } else {
      var init := rest[..|rest| - 1];
      assert items[..n - 1] == [x] + init;
      JoinCons(x, init, sep);
    }
  }

  /** Suffixing every item is joining them and suffixing once more. */
  lemma {:induction false} SuffixedIsJoin(items: seq<string>, sep: string)
    requires |items| > 0
    ensures Suffixed(items, sep) == Join(items, sep) + sep
    decreases |items|
  {
    if |items| > 1 {
      var init := items[..|items| - 1];
      SuffixedIsJoin(init, sep);
    }
  }

  /** Every item occurs in the suffixed text. */
  lemma {:induction false} SuffixedContainsItem(items: seq<string>, suffix: string, j: nat)
    requires j < |items|
    ensures Contains(Suffixed(items, suffix), items[j])
    decreases |items|
  {
    var init := items[..|items| - 1];
    var last := items[|items| - 1];
    assert Suffixed(items, suffix) == Suffixed(init, suffix) + (last + suffix);
    if j == |items| - 1 {
      assert StartsWith(last + suffix, last);
      ContainsPrepend(Suffixed(init, suffix), last + suffix, last);
    } else {
      assert items[j] == init[j];
      SuffixedContainsItem(init, suffix, j);
      ContainsAppend(Suffixed(init, suffix), last + suffix, items[j]);
    }
  }

  /** Every item occurs in the joined text. */
  lemma {:induction false} JoinContainsItem(items: seq<string>, sep: string, j: nat)
    requires j < |items|
    ensures Contains(Join(items, sep), items[j])
    decreases |items|
  {
    if |items| == 1 {
      assert StartsWith(items[0], items[0]);
    } else {
      var init := items[..|items| - 1];
      var last := items[|items| - 1];
      assert Join(items, sep) == Join(init, sep) + (sep + last);
      if j == |items| - 1 {
        assert StartsWith(last, last);
        ContainsPrepend(Join(init, sep) + sep, last, last);
      } else {
        assert items[j] == init[j];
        JoinContainsItem(init, sep, j);
        ContainsAppend(Join(init, sep), sep + last, items[j]);
      }
    }
  }

  /** One more item extends the suffixed text by that item and the suffix. */
  lemma SuffixedStep(items: seq<string>, i: nat, suffix: string)
    requires i < |items|
    ensures Suffixed(items[..i + 1], suffix) == Suffixed(items[..i], suffix) + (items[i] + suffix)
  {
    assert items[..i + 1][..i] == items[..i];
  }

  /** The joined text begins with the first item. */
  lemma {:induction false} JoinStartsWithFirst(items: seq<string>, sep: string)
    requires |items| > 0
    ensures StartsWith(Join(items, sep), items[0])
    decreases |items|
  {
    if |items| > 1 {
      var init := items[..|items| - 1];
      JoinStartsWithFirst(init, sep);
      assert init[0] == items[0];
      var j := Join(init, sep);
      assert (j + sep + items[|items| - 1])[..|items[0]|] == j[..|items[0]|];
    }
  }

  /** Decimal digits of a natural number, as Python `str(n)` prints it. */
  function DecimalString(n: nat): (r: string)
    ensures |r| > 0
    ensures forall i :: 0 <= i < |r| ==> '0' <= r[i] <= '9'
    ensures n < 10 ==> r == [(n + '0' as int) as char]
  {
    if n < 10 then [(n + '0' as int) as char]
    else DecimalString(n / 10) + DecimalString(n % 10)
  }
}

=== FILE: wrappers.dfy ===
/** Optional values: a missing cell of the curriculum table is `None`. */
module Wrappers {

  datatype Option<+T> = None | Some(value: T) {

    /** The value, or `default` when missing (pandas `fillna(default)`). */
    function GetOr(default: T): T {
      match this
      case Some(v) => v
      case None => default
    }
  }
}
